=== FILE: README.md ===
# wyoming_tts_proxy — a Dafny model of the proxy's connection handler

The proxy sits between Wyoming clients and a list of upstream text-to-speech
servers. For each client connection it answers `describe` with the first upstream's
`info` (renamed "via" the proxy) or with its own fallback `info`; it normalises the
text of every `synthesize` request (one-shot, or streamed as start/chunks/stop),
replays a cached answer when there is one, and otherwise tries the upstreams in
order, relaying every upstream event to the client and caching the winner's
events under the normalised text.

The model is pure and sequential: one connection, one event at a time.

- `options.dfy` (`Options`): `Option<T>`.
- `events.dfy` (`Events`): the Wyoming events the proxy reads or writes, `info`
  payloads, and which events are terminal.
- `normalizer.dfy` (`Normalizer`): `TextNormalizer.normalize`. It applies the
  replacements, the markdown or asterisk step and the emoji step, then collapses
  and strips whitespace.
- `cache.dfy` (`AudioCache`): the key pre-image, and `get` and `set` over a map
  with an enabled flag. Reads and writes can fail.
- `failover.dfy` (`Failover`): the synthesis read loop and the ordered failover;
  the `describe` loop, its rewrite and its fallback.
- `handler.dfy` (`Handler`): `handle_event` as a step function, the shared
  synthesis pipeline, and traces of several events.

How the outside world is represented:

- An upstream's answer to one synthesis request is a script: the events it yields,
  then either end-of-stream or an exception. A failed connect or send is the
  script that yields nothing and raises.
- An upstream's answer to `describe` either raises or yields one reply, or nothing.
- The regex replacements, the markdown regexes and the emoji library are function
  parameters (`Normalizer.Ops`). Every property holds whatever they compute.
- The cache directory is a map from the hash pre-image `text|voice` to a file's
  contents. A file is either a readable event list or unreadable. How a cache
  write ends is a parameter (`AudioCache.WriteIo`).
- The Prometheus counters are a record. Each URI's failure counter is a
  `map<string, nat>` entry.

Where the repository's documentation describes behaviour that the code does not
have, the model follows the code:

- A successful streamed request ends with whatever the winning upstream sent.
  The proxy adds `synthesize-stopped` only after a cache replay or after every
  upstream has failed (handler.py lines 301-308, 354-355, 360-363).
- An upstream that closes its stream without a terminal event is a success. Its
  events are cached (handler.py lines 206-209, 227-230).
- The cache has no size budget, pruning or eviction (cache.py).
- Every configured replacement is applied: a compiled pattern object is always
  truthy at `if pattern:`. A replacement whose `re.sub` raises `re.error` leaves the
  text unchanged. No other exception is caught, and a replacement whose `re.sub`
  raises anything else (an `IndexError` for a template naming an unknown group,
  such as `\g<x>`) is not represented: `sub` can only succeed or fail with
  `re.error`. In the source such an exception leaves `normalize` (called at
  handler.py lines 154 and 283) and then `handle_event`, and the connection ends.
  The configuration schema checks only the pattern, not the replacement.
- `collapse_whitespace` is never read: whitespace is always collapsed and stripped.
  `remove_urls`, `remove_code_blocks` and `max_text_length` are not read either, so
  the tests that expect them (tests/test_normalizer.py lines 96-129) do not
  describe `normalize`.

## Model

| member | source | states |
|---|---|---|
| Normalizer.Normalize | wyoming_tts_proxy/normalizer.py:16-56 | Empty input gives empty output. Whatever the opaque steps do, the output's only whitespace is a single space, it never has two adjacent spaces, and it has no leading or trailing space. With markdown off and `remove_asterisks` on, it has no `*`. With markdown on, it has no backtick. With no replacements and markdown and emoji off, the output is exactly the words of the input, with `*` removed when `remove_asterisks` is on, joined by single spaces. |
| Normalizer.TrimLeft | wyoming_tts_proxy/normalizer.py:53 | `lstrip`: the result is a suffix of the input. Everything dropped is whitespace. The result does not start with whitespace and keeps every visible character. |
| Normalizer.TrimRight | wyoming_tts_proxy/normalizer.py:53 | `rstrip`: the result is a prefix of the input. Everything dropped is whitespace. The result does not end with whitespace and keeps every visible character. |
| Normalizer.Collapse | wyoming_tts_proxy/normalizer.py:53 | `re.sub(r"\s+", " ", s)`: the only whitespace left is `' '`, with no two adjacent. Empty exactly when the input is. Starts with whitespace exactly when the input does. Same visible characters, in order, and the same words as `s.split()`, in order. CollapseLast gives the end. |
| Normalizer.CollapseLast | wyoming_tts_proxy/normalizer.py:53 | The last whitespace run becomes a space too: the collapsed text ends in a space exactly when the input ends in whitespace. With the start, the words and the single-space shape, this determines `re.sub(r"\s+", " ", s)`. |
| Normalizer.Clean | wyoming_tts_proxy/normalizer.py:53 | `re.sub(r"\s+", " ", s).strip()` equals `" ".join(s.split())`: the input's words, in order, one space apart. The result is well-formed and empty exactly when the input has no visible character. |
| Normalizer.CleanEmptyIffSpaces | wyoming_tts_proxy/normalizer.py:53 | The cleanup yields `""` if and only if every input character is whitespace. |
| Normalizer.CollapseFixpoint | wyoming_tts_proxy/normalizer.py:53 | On text whose whitespace is already single spaces, collapsing changes nothing. |
| Normalizer.CleanFixpoint | wyoming_tts_proxy/normalizer.py:53 | Cleanup is the identity on well-formed text. |
| Normalizer.JoinOfWellFormed | wyoming_tts_proxy/normalizer.py:53 | Well-formed text is the single-space join of its own words, so its words determine it. |
| Normalizer.RemoveChar | wyoming_tts_proxy/normalizer.py:42-46 | `str.replace(x, "")`: no `x` is left, and every other character keeps its number of occurrences. Text without `x` is unchanged. |
| Normalizer.RemoveCharAppend | wyoming_tts_proxy/normalizer.py:42-46 | Removal works piece by piece: removing from a concatenation concatenates the removals, so the kept characters stay in their order. |
| Normalizer.RemoveEmoji | wyoming_tts_proxy/normalizer.py:49-50 | Emoji removal only deletes: every output character occurs in the input. |
| Normalizer.ApplyReplacementsInOrder | wyoming_tts_proxy/normalizer.py:23-30 | The replacements run in list order: running a list is running its first part, then the rest on that result. |
| Normalizer.NormalizeIdempotent | wyoming_tts_proxy/normalizer.py:44-53 | With no replacements and markdown and emoji off, normalising twice equals normalising once. |
| Normalizer.WhitespaceOnlyIsEmpty | wyoming_tts_proxy/normalizer.py:53 | Text made only of whitespace normalises to `""` (no replacements, markdown off). |
| Normalizer.MarkdownKeepsAsterisks | wyoming_tts_proxy/normalizer.py:33-46 | With markdown on, the asterisk step is skipped: an asterisk the markdown regexes leave in place survives, whatever `remove_asterisks` says. |
| Normalizer.CollapseSwitchIgnored | wyoming_tts_proxy/normalizer.py:53 | The `collapse_whitespace` switch does not affect the result. |
| Normalizer.ExampleStripped | wyoming_tts_proxy/normalizer.py:44-46 | Removing `*` from `Hello *world*!` gives `Hello world!`. |
| Normalizer.DefaultExample | tests/test_normalizer.py:7-10 | The default configuration normalises `Hello *world*!` to `Hello world!`, whatever the opaque steps are. |
| AudioCache.KeyIgnoresMissingVoice | wyoming_tts_proxy/cache.py:19-21 | No voice and the empty voice share one entry. |
| AudioCache.KeyInjective | wyoming_tts_proxy/cache.py:19-21 | For texts without `|`, two requests share a key if and only if their texts are equal and their voices agree once `None` is read as `""`. |
| AudioCache.KeyCollision | wyoming_tts_proxy/cache.py:19-21 | A `|` in the text lets different requests share a key: `("a|", "b")` and `("a", "|b")`. |
| AudioCache.Get | wyoming_tts_proxy/cache.py:23-45 | A disabled cache and a missing file give `None`. On an enabled cache a readable file is returned whole. Any list returned is exactly what the file for the key holds. |
| AudioCache.Set | wyoming_tts_proxy/cache.py:47-60 | A disabled cache is unchanged, and no other key's file ever changes. A successful write makes the key's file hold exactly the events. A failed write leaves an unreadable file or a prefix of the events. A failed open leaves the old file alone. |
| AudioCache.GetAfterSet | wyoming_tts_proxy/cache.py:23-57 | On an enabled cache, `get` after a successful `set` returns the same events in the same order. |
| AudioCache.SetLeavesOtherKeys | wyoming_tts_proxy/cache.py:51-57 | `set` never changes what `get` returns for a different key. |
| AudioCache.SetReplacesWholeEntry | wyoming_tts_proxy/cache.py:54-57 | A successful `set` replaces the entry wholesale, whatever an earlier `set` left. |
| AudioCache.FailedWriteServesPrefix | wyoming_tts_proxy/cache.py:33-60 | After a failed write, `get` answers a miss or a prefix of the events that were being written. It never returns anything else. |
| Failover.ReadLoop | wyoming_tts_proxy/handler.py:206-225 | The relayed events are a prefix of what the upstream yields. No relayed event before the last is terminal. Reading stops at the first terminal event or at the end. |
| Failover.AttemptOutcome | wyoming_tts_proxy/handler.py:206-233 | An attempt succeeds if and only if the upstream yields a terminal event or ends its stream cleanly. A failed attempt has relayed everything it yielded. |
| Failover.TryUpstreams | wyoming_tts_proxy/handler.py:186-233 | The URIs contacted are a prefix of the list, in order. When nothing succeeds, all of them were contacted. |
| Failover.FirstOkOrNone | wyoming_tts_proxy/handler.py:186-233 | Either no attempt succeeds, or there is a first one that does. |
| Failover.WinnerIsFirstOk | wyoming_tts_proxy/handler.py:186-233 | When attempt `w` is the first to succeed, and closing a connection never raises: it wins with its own buffer, URIs after it are never contacted, and the client got every event of attempts 0..w in order. Each earlier URI's failure count rises by one per occurrence in the list. |
| Failover.ExhaustedWhenNoneOk | wyoming_tts_proxy/handler.py:186-236 | When no attempt succeeds: there is no winner, every URI is contacted, the client got every relayed event, and every URI's count rises by its number of occurrences. |
| Failover.WinnerOrExhausted | wyoming_tts_proxy/handler.py:186-237 | Every run ends in one of two ways. There is a winner exactly when some attempt succeeds; it is then the first such attempt, and nothing after it is contacted. Otherwise every URI is contacted and everything relayed reaches the client. |
| Failover.RewriteInfo | wyoming_tts_proxy/handler.py:96-119 | Every TTS program is renamed `<name> (via <proxy>)` in place, with its other fields kept and missing voices read as `[]`. Program count and order and the other services are preserved. |
| Failover.FallbackInfo | wyoming_tts_proxy/handler.py:129-147 | The fallback `info` has one TTS program, named after the proxy, with an empty voice list and no other services. |
| Failover.DescribeUpstreams | wyoming_tts_proxy/handler.py:81-147 | Exactly one `info` is sent, given that closing an upstream connection never raises. The URIs contacted are a prefix of the list. |
| Failover.DescribeWinner | wyoming_tts_proxy/handler.py:83-127 | When upstream `w` is the first to answer `info`: its rewritten `info` is sent and later URIs are never contacted. Only the earlier upstreams that raised are counted as failures; a non-`info` reply is not. |
| Failover.DescribeFallback | wyoming_tts_proxy/handler.py:83-147 | When no upstream answers `info`: every URI is contacted, the fallback `info` is sent, and only the upstreams that raised are counted. |
| Handler.WrapSurrounds | wyoming_tts_proxy/handler.py:172-175 | A template with one `{{text}}` and no other `{` puts the normalised text between its two parts. With no template, or an empty one, the text is sent as it is. |
| Handler.WrapFillsLeftmost | wyoming_tts_proxy/handler.py:172-175 | Wrapping fills the template's first `{{text}}` with the text and goes on with the rest of the template, so every placeholder is filled. |
| Handler.WrapWithoutPlaceholder | wyoming_tts_proxy/handler.py:172-175 | A non-empty template without `{{text}}` is sent as it is. |
| Handler.ReplaceAllNoMatch | wyoming_tts_proxy/handler.py:174 | `str.replace`: text in which the pattern never occurs is unchanged. |
| Handler.ReplaceAllLeftmost | wyoming_tts_proxy/handler.py:174 | `str.replace` replaces the leftmost occurrence and resumes the scan right after it. Together with the unchanged case, this determines the result for every text. |
| Handler.RunPipeline | wyoming_tts_proxy/handler.py:154-237 | Silence is answered exactly when the normalised text is empty: `AudioStart(16000, 2, 1)` and `AudioStop`, no upstream, cache and counters unchanged. A replay contacts no upstream, leaves the cache alone and counts one hit. Exhaustion contacts every URI and leaves the cache alone. |
| Handler.HandleEvent | wyoming_tts_proxy/handler.py:59-277 | The connection is kept open for every text of Unicode scalar values, every replacement that raises nothing but `re.error`, and every cache existence check that does not raise. An unknown event changes nothing. A start opens a fresh session with the voice and no chunks, discarding any earlier one. A chunk is appended only when a session is active. A stop without a session is a no-op, and a stop with one always ends idle. `describe` and `synthesize` leave the session alone. `describe` sends exactly one `info` when no connection close raises. |
| Handler.CacheHitReplays | wyoming_tts_proxy/handler.py:164-169 | A non-empty stored list is replayed verbatim and in order, with no upstream contact and no cache write. The streaming path appends exactly one `synthesize-stopped`. |
| Handler.EmptyEntryIsMiss | wyoming_tts_proxy/handler.py:164-165 | An empty stored list is a miss. The request goes to the upstreams in order, and no hit is counted. |
| Handler.PipelineDelivers | wyoming_tts_proxy/handler.py:186-230 | On a miss whose first successful attempt is `w`: the client gets every event of attempts 0..w, the URIs contacted are exactly 0..w, and all receive the same request. The cache write stores the winner's buffer under the normalised text. Earlier failures are counted. |
| Handler.PipelineExhausts | wyoming_tts_proxy/handler.py:186-237 | When every attempt fails: the client gets all relayed events, then one `Error("All upstream TTS services failed.")`, then `synthesize-stopped` on the streaming path only. Every URI is contacted and the cache is untouched. |
| Handler.DeliveredIsCached | wyoming_tts_proxy/handler.py:227-229 | After a delivery on an enabled cache with a successful write, the winner's buffer can be read back under the normalised, unwrapped text. |
| Handler.StreamingMatchesOneShot | wyoming_tts_proxy/handler.py:296-363 | The streaming and one-shot paths have the same outcome, cache, counters and upstreams. The streaming output has one extra trailing `synthesize-stopped` exactly after a replay or an exhaustion. The request is the same whenever streaming is forced. |
| Handler.SessionStaysValid | wyoming_tts_proxy/handler.py:289-294 | An idle session never carries a leftover voice or chunks. |
| Handler.ChunksAccumulate | wyoming_tts_proxy/handler.py:259-271 | During an active session, chunks are appended in arrival order, with nothing sent and no upstream contacted. |
| Handler.StreamedRequest | wyoming_tts_proxy/handler.py:244-294 | Start(V), chunks, stop counts one request. It runs the stop on a session holding V and all the chunks in order, so it synthesises their concatenation with V and leaves the session idle. |
| Handler.StreamedEqualsOneShot | wyoming_tts_proxy/handler.py:273-363 | Start(V), chunks, stop leaves the same cache and counters, contacts the same upstreams and sends the same events as one `synthesize` of the concatenated chunks. The only extra is a trailing `synthesize-stopped` after a replay or an exhaustion. |
| Handler.SecondRequestIsReplayed | wyoming_tts_proxy/handler.py:159-229 | Suppose an upstream answers a request with a non-empty buffer, on an enabled cache whose write succeeds. Then the next request for the same normalised text and voice, on either path, is a replay: it sends exactly that buffer (plus `synthesize-stopped` on the streaming path) and contacts no upstream. |

## Left out

- The SHA-256 digest and the event framing on disk are abstracted. Files are
  indexed by the digest's pre-image.
- Filesystem behaviour is abstracted too. A read error inside the `try` of `get`
  is an unreadable entry, and a write error is a `WriteIo` value.
- A failing existence check is not represented: the model only asks whether the
  key's file is present. In the source, `cache_file.exists()` (cache.py line 30)
  runs before the `try` at cache.py line 33. `Path.exists()` passes on every
  `OSError` except the not-found kinds, a permission error for one. The callers
  at handler.py lines 164 and 301 do not catch it, so `handle_event` raises and
  the connection ends.
- Python's `re` for the custom replacements and markdown regexes, and the `emoji`
  library, are opaque functions. `pattern` validation by the configuration schema
  is left out.
- Sockets, `AsyncClient`, asyncio and timeouts are left out; each upstream is a
  script. The model is one connection.
- Closing an upstream connection is modelled as never raising. In the source,
  `cache.set` and `return True` run inside `async with AsyncClient.from_uri(uri)`
  (handler.py lines 189-230, 323-355). If leaving that block raises after a
  successful read, the attempt's events are already sent and cached. The URI is
  then counted as failed and the next one is tried. For `describe`, the `info`
  is already sent (handler.py lines 85-127), and a later upstream or the fallback
  sends another.
- Failover.DescribeUpstreams: "exactly one `info`" holds only when no connection
  close raises.
- Failover.WinnerIsFirstOk: the winner, URIs and counts are stated only for runs
  in which no connection close raises.
- Writes to the client are modelled as always succeeding. In the source, a client
  write that raises inside an upstream attempt is caught and counted as that
  upstream's failure.
- The latency histogram (`perf_counter`, floats), the metrics HTTP server and
  logging are left out.
- `streaming_context` is left out: it is stored and cleared but never read.
- Strings are modelled as sequences of Unicode scalar values. A text or voice
  holding a lone surrogate (JSON `"\ud800"`) is not represented. In the source it
  survives `normalize`, and with the cache enabled `get` calls `get_hash` (cache.py
  line 27) before its `try`; `key.encode("utf-8")` there (cache.py line 21) raises
  `UnicodeEncodeError`. The callers at handler.py lines 164 and 301 do not catch
  it, so `handle_event` raises and the connection ends.
- Handler.HandleEvent: "the connection is kept open" is stated only for texts and
  voices without lone surrogates, for replacements whose `re.sub` raises nothing
  but `re.error`, and for cache existence checks that do not raise. The model
  cannot represent the three raising paths above.
- A voice is modelled as its string form, which is what the cache key uses. Other
  event payload fields (context, timestamps, audio format details beyond
  rate/width/channels) are not modelled.
- Text is never `None` in the model, so only the empty-string half of the falsy
  check is modelled.
- `__main__.py` (argument parsing, YAML loading, server start-up) and the
  configuration schema's loading and validation are left out. The handler's
  configuration is the `Handler.Config` record.
- Normalizer.RemoveEmoji: states only that no character is added, not which
  characters go, because the emoji library's matching is opaque.
- Handler.EmptyEntryIsMiss: states which outcomes can follow and that URIs are
  tried in order. What is sent in each case is stated by Handler.PipelineDelivers
  and Handler.PipelineExhausts.

=== FILE: cache.dfy ===
/**
 * The on-disk audio cache: one file per key holding the framed event sequence of a
 * past synthesis. The directory is a map from key to file contents; the SHA-256
 * digest that names a file is left out, so files are indexed by the digest's
 * pre-image (equivalently, by an injective hash of it). There is no size budget
 * and nothing is ever evicted.
 */
module AudioCache {
  import opened Options
  import opened Events

  /**
   * What reading a cache file yields: the events it frames, or a read error
   * (a file that is corrupt, torn by a failed write, or otherwise unreadable).
   */
  datatype Entry = Stored(events: seq<Event>) | Unreadable

  datatype Cache = Cache(enabled: bool, files: map<string, Entry>)

  /**
   * How the file write inside `set` ends: it succeeds; opening the file fails (the
   * old file is untouched); or writing fails after `written` events, with `torn`
   * telling whether the failure cut an event's frame in half.
   */
  datatype WriteIo = WriteOk | OpenFailed | WriteFailed(written: nat, torn: bool)

  /** The digest's pre-image: `f"{text}|{voice or ''}"`. */
  function Key(text: string, voice: Option<string>): string {
    text + "|" + voice.GetOr("")
  }

  /** No voice and the empty voice share one entry. */
  lemma KeyIgnoresMissingVoice(text: string)
    ensures Key(text, None) == Key(text, Some(""))
  {
  }

  /** In the key of a text without `|`, the first `|` sits right after the text. */
  lemma SeparatorPosition(t: string, v: Option<string>)
    requires '|' !in t
    ensures |Key(t, v)| > |t| && Key(t, v)[|t|] == '|'
    ensures forall i :: 0 <= i < |t| ==> Key(t, v)[i] != '|'
  {
    forall i | 0 <= i < |t|
      ensures Key(t, v)[i] != '|'
    {
      assert Key(t, v)[i] == t[i];
    }
  }

  /** For texts without a `|`, distinct (text, voice) pairs get distinct keys. */
  lemma KeyInjective(t1: string, v1: Option<string>, t2: string, v2: Option<string>)
    requires '|' !in t1 && '|' !in t2
    ensures Key(t1, v1) == Key(t2, v2) <==> t1 == t2 && v1.GetOr("") == v2.GetOr("")
  {
    var k1, k2 := Key(t1, v1), Key(t2, v2);
    if k1 == k2 {
      SeparatorPosition(t1, v1);
      SeparatorPosition(t2, v2);
      assert |t1| == |t2|;
      assert t1 == k1[..|t1|] && t2 == k2[..|t2|];
      assert v1.GetOr("") == k1[|t1| + 1..] && v2.GetOr("") == k2[|t2| + 1..];
    }
  }

  /** A `|` in the text lets two different requests share one entry. */
  lemma KeyCollision()
    ensures Key("a|", Some("b")) == Key("a", Some("|b"))
  {
  }

  /**
   * `AudioCache.get`: the stored events for (text, voice), or `None` when the cache is
   * disabled, the file is missing, or reading it fails. A readable file is always
   * returned, whole.
   */
  function Get(c: Cache, text: string, voice: Option<string>): (r: Option<seq<Event>>)
    ensures !c.enabled ==> r == None
    ensures Key(text, voice) !in c.files ==> r == None
    ensures r.Some? ==> c.files[Key(text, voice)] == Stored(r.value)
    ensures c.enabled && Key(text, voice) in c.files && c.files[Key(text, voice)].Stored? ==>
      r == Some(c.files[Key(text, voice)].events)
  {
    if !c.enabled then None
    else
      var k := Key(text, voice);
      if k !in c.files then None
      else
        match c.files[k]
        case Stored(events) => Some(events)
        case Unreadable => None
  }

  /**
   * `AudioCache.set`: writes the events as the whole new content of the entry's file.
   * A disabled cache and a failed open change nothing; a write that fails part-way
   * leaves the events written so far, or an unreadable file if a frame was torn.
   */
  function Set(c: Cache, text: string, voice: Option<string>, events: seq<Event>, io: WriteIo): (r: Cache)
    ensures r.enabled == c.enabled
    ensures !c.enabled ==> r == c
    ensures forall k :: k != Key(text, voice) ==>
      (k in r.files <==> k in c.files) && (k in c.files ==> r.files[k] == c.files[k])
    ensures c.enabled && io == WriteOk ==> r.files == c.files[Key(text, voice) := Stored(events)]
    ensures io == OpenFailed ==> r == c
    ensures c.enabled && io.WriteFailed? ==>
      && Key(text, voice) in r.files
      && (r.files[Key(text, voice)].Unreadable? || r.files[Key(text, voice)].events <= events)
  {
    if !c.enabled then c
    else
      var k := Key(text, voice);
      match io
      case WriteOk => c.(files := c.files[k := Stored(events)])
      case OpenFailed => c
      case WriteFailed(written, torn) =>
        var kept := if written < |events| then written else |events|;
        c.(files := c.files[k := if torn then Unreadable else Stored(events[..kept])])
  }

  /** On an enabled cache, a successful `set` is read back verbatim: same events, same order. */
  lemma GetAfterSet(c: Cache, text: string, voice: Option<string>, events: seq<Event>)
    requires c.enabled
    ensures Get(Set(c, text, voice, events, WriteOk), text, voice) == Some(events)
  {
  }

  /** `set` on one key never changes what `get` returns for another key. */
  lemma SetLeavesOtherKeys(c: Cache, text: string, voice: Option<string>, events: seq<Event>, io: WriteIo,
                           otherText: string, otherVoice: Option<string>)
    requires Key(otherText, otherVoice) != Key(text, voice)
    ensures Get(Set(c, text, voice, events, io), otherText, otherVoice) == Get(c, otherText, otherVoice)
  {
  }

  /** A successful `set` replaces the entry wholesale, whatever an earlier `set` left there. */
  lemma SetReplacesWholeEntry(c: Cache, text: string, voice: Option<string>, first: seq<Event>, io: WriteIo,
                              second: seq<Event>)
    ensures Set(Set(c, text, voice, first, io), text, voice, second, WriteOk) == Set(c, text, voice, second, WriteOk)
  {
  }

  /**
   * Write errors never escape and never make `get` serve events that were not
   * written: after a failed write, `get` answers a miss or a prefix of the events.
   */
  lemma FailedWriteServesPrefix(c: Cache, text: string, voice: Option<string>, events: seq<Event>,
                                written: nat, torn: bool)
    requires c.enabled
    ensures var r := Get(Set(c, text, voice, events, WriteFailed(written, torn)), text, voice);
            r == None || r.value <= events
  {
  }
}

=== FILE: events.dfy ===
/**
 * The events of the Wyoming protocol that the proxy reads, writes or relays.
 * The wire framing (JSON header plus binary payload) is not modelled: an event is
 * its kind together with the fields the proxy looks at.
 */
module Events {
  import opened Options

  /** Attribution of a program: a name and a URL. */
  datatype Attribution = Attribution(name: string, url: string)

  /** A voice advertised by a TTS program; the proxy only copies it. */
  datatype TtsVoice = TtsVoice(name: string, description: Option<string>, languages: seq<string>)

  /** One TTS program inside an `info` event. */
  datatype TtsProgram = TtsProgram(
    name: string,
    description: Option<string>,
    attribution: Attribution,
    installed: bool,
    version: Option<string>,
    voices: Option<seq<TtsVoice>>,
    supportsStreaming: bool)

  /**
   * The non-TTS parts of an `info` event (asr, handle, intent, wake, mic, snd,
   * satellite). The proxy copies them verbatim, so their contents stay abstract:
   * each service list is kept as the names of its programs.
   */
  datatype Services = Services(
    asr: seq<string>, handle: seq<string>, intent: seq<string>, wake: seq<string>,
    mic: seq<string>, snd: seq<string>, satellite: Option<string>)

  /** What an `Info(...)` built with only a `tts` argument carries elsewhere. */
  const NoServices := Services([], [], [], [], [], [], None)

  datatype InfoBody = InfoBody(tts: seq<TtsProgram>, services: Services)

  /**
   * A protocol event. A voice is kept as its rendered string form, the value the
   * cache key is built from; `Other` stands for every kind the handler does not
   * dispatch on.
   */
  datatype Event =
    | Describe
    | Info(info: InfoBody)
    | Synthesize(text: string, voice: Option<string>)
    | SynthesizeStart(startVoice: Option<string>)
    | SynthesizeChunk(chunkText: string)
    | SynthesizeStop
    | SynthesizeStopped
    | AudioStart(rate: int, width: int, channels: int)
    | AudioChunk(chunkRate: int, chunkWidth: int, chunkChannels: int, audio: seq<bv8>)
    | AudioStop
    | Error(message: string)
    | Other(kind: string)

  /** The kinds that end an upstream's synthesis response. */
  predicate IsTerminal(e: Event) {
    e.AudioStop? || e.Error? || e.SynthesizeStopped?
  }
}

=== FILE: failover.dfy ===
/**
 * Ordered failover across the configured upstream URIs, for synthesis and for
 * discovery (`describe`). Each upstream is a script instead of a socket: the events
 * it yields and how its stream ends. Everything that can raise inside one attempt
 * (connecting, sending, reading, a read timeout) is a script that raises.
 */
module Failover {
  import opened Options
  import opened Events

  /** How an upstream's stream ends once its scripted events are used up. */
  datatype Ending = EndOfStream | Raises

  /**
   * One upstream's behaviour for one synthesis request: it yields `events`, then
   * either reports end-of-stream (`read_event` returns `None`) or raises. A failure
   * to connect or to send the request is `Script([], Raises)`.
   */
  datatype Script = Script(events: seq<Event>, ending: Ending)

  /** The events relayed to the client during one attempt, and whether it succeeded. */
  datatype Attempt = Attempt(relayed: seq<Event>, ok: bool)

  /** The failure counter of one URI, zero before its first failure. */
  function Count(failures: map<string, nat>, uri: string): nat {
    if uri in failures then failures[uri] else 0
  }

  /** `UPSTREAM_FAILURES_TOTAL.labels(uri=uri).inc()`. */
  function Bump(failures: map<string, nat>, uri: string): map<string, nat> {
    failures[uri := Count(failures, uri) + 1]
  }

  /**
   * The read loop: each event is relayed (and buffered) before the terminal check,
   * so the loop yields the events up to and including the first terminal one.
   */
  function ReadLoop(events: seq<Event>): (relayed: seq<Event>)
    ensures relayed <= events
    ensures forall i :: 0 <= i < |relayed| - 1 ==> !IsTerminal(relayed[i])
    ensures relayed == events || (relayed != [] && IsTerminal(relayed[|relayed| - 1]))
  {
    if events == [] then []
    else if IsTerminal(events[0]) then [events[0]]
    else [events[0]] + ReadLoop(events[1..])
  }

  /**
   * One attempt: the read loop over the scripted events. It succeeds when the loop
   * stops at a terminal event, or when the stream ends before the script raises.
   */
  function Run(s: Script): Attempt {
    var relayed := ReadLoop(s.events);
    var stopped := relayed != [] && IsTerminal(relayed[|relayed| - 1]);
    Attempt(relayed, stopped || s.ending == EndOfStream)
  }

  /**
   * An attempt succeeds exactly when the upstream yields a terminal event or ends
   * its stream cleanly; a failed attempt has relayed every event it yielded.
   */
  lemma AttemptOutcome(s: Script)
    ensures Run(s).ok <==> s.ending == EndOfStream || exists i :: 0 <= i < |s.events| && IsTerminal(s.events[i])
    ensures !Run(s).ok ==> Run(s).relayed == s.events
  {
    var relayed := ReadLoop(s.events);
    if i :| 0 <= i < |s.events| && IsTerminal(s.events[i]) {
      if relayed == s.events {
        assert !IsTerminal(relayed[|relayed| - 1]) ==> i < |relayed| - 1;
      }
    }
  }

  /** Every event of every script, in order: what the attempts in `scripts` relay. */
  function RelayedBy(scripts: seq<Script>): seq<Event> {
    if scripts == [] then [] else Run(scripts[0]).relayed + RelayedBy(scripts[1..])
  }

  /** Attempt `w` is the first one that succeeds. */
  ghost predicate FirstOk(scripts: seq<Script>, w: nat) {
    w < |scripts| && Run(scripts[w]).ok && forall i :: 0 <= i < w ==> !Run(scripts[i]).ok
  }

  /** Every attempt fails. */
  ghost predicate NoneOk(scripts: seq<Script>) {
    forall i :: 0 <= i < |scripts| ==> !Run(scripts[i]).ok
  }

  /**
   * The result of a failover run: everything relayed to the client, the failure
   * counters afterwards, the URIs contacted in order, and the winning attempt's
   * buffer (`None` on exhaustion).
   */
  datatype Outcome = Outcome(sent: seq<Event>, failures: map<string, nat>, tried: seq<string>, winner: Option<seq<Event>>)

  /**
   * The failover loop of the synthesis paths: try each URI in list order, stop at
   * the first attempt that succeeds, and count a failure for each one that raises.
   */
  function TryUpstreams(uris: seq<string>, scripts: seq<Script>, failures: map<string, nat>): (r: Outcome)
    requires |uris| == |scripts|
    ensures |r.tried| <= |uris| && r.tried == uris[..|r.tried|]
    ensures r.winner.None? ==> r.tried == uris
    decreases |uris|
  {
    if uris == [] then Outcome([], failures, [], None)
    else
      var a := Run(scripts[0]);
      if a.ok then Outcome(a.relayed, failures, [uris[0]], Some(a.relayed))
      else
        var rest := TryUpstreams(uris[1..], scripts[1..], Bump(failures, uris[0]));
        assert uris == [uris[0]] + uris[1..];
        Outcome(a.relayed + rest.sent, rest.failures, [uris[0]] + rest.tried, rest.winner)
  }

  /** Either some attempt is the first to succeed, or all of them fail. */
  lemma FirstOkOrNone(scripts: seq<Script>)
    ensures NoneOk(scripts) || exists w :: FirstOk(scripts, w)
  {
    if !NoneOk(scripts) {
      var k :| 0 <= k < |scripts| && Run(scripts[k]).ok;
      LeastOk(scripts, k);
    }
  }

  lemma LeastOk(scripts: seq<Script>, w: nat)
    requires w < |scripts| && Run(scripts[w]).ok
    ensures exists v :: FirstOk(scripts, v)
    decreases w
  {
    if forall i :: 0 <= i < w ==> !Run(scripts[i]).ok {
      assert FirstOk(scripts, w);
    } else {
      var j :| 0 <= j < w && Run(scripts[j]).ok;
      LeastOk(scripts, j);
    }
  }

  lemma BumpCount(failures: map<string, nat>, uri: string, u: string)
    ensures Count(Bump(failures, uri), u) == Count(failures, u) + (if u == uri then 1 else 0)
  {
  }

  lemma MultisetCons(uris: seq<string>, n: nat, u: string)
    requires 0 < n <= |uris|
    ensures multiset(uris[..n])[u] == (if u == uris[0] then 1 else 0) + multiset(uris[1..][..n - 1])[u]
  {
    assert uris[..n] == [uris[0]] + uris[1..][..n - 1];
  }

  lemma FirstOkTail(scripts: seq<Script>, w: nat)
    requires w > 0 && FirstOk(scripts, w)
    ensures !Run(scripts[0]).ok && FirstOk(scripts[1..], w - 1)
  {
    forall i | 0 <= i < w - 1
      ensures !Run(scripts[1..][i]).ok
    {
      assert scripts[1..][i] == scripts[i + 1];
    }
  }

  lemma {:induction false} WinnerRelays(uris: seq<string>, scripts: seq<Script>, failures: map<string, nat>, w: nat)
    requires |uris| == |scripts| && FirstOk(scripts, w)
    ensures var r := TryUpstreams(uris, scripts, failures);
      && r.winner == Some(Run(scripts[w]).relayed)
      && r.tried == uris[..w + 1]
      && r.sent == RelayedBy(scripts[..w + 1])
    decreases w
  {
    if w == 0 {
      assert scripts[..1] == [scripts[0]];
      assert RelayedBy(scripts[..1]) == Run(scripts[0]).relayed + RelayedBy([]);
    } else {
      FirstOkTail(scripts, w);
      var rest := TryUpstreams(uris[1..], scripts[1..], Bump(failures, uris[0]));
      WinnerRelays(uris[1..], scripts[1..], Bump(failures, uris[0]), w - 1);
      var r := TryUpstreams(uris, scripts, failures);
      assert r.winner == rest.winner && r.sent == Run(scripts[0]).relayed + rest.sent
          && r.tried == [uris[0]] + rest.tried;
      assert uris[..w + 1] == [uris[0]] + uris[1..][..w];
      assert scripts[..w + 1][0] == scripts[0];
      assert scripts[..w + 1][1..] == scripts[1..][..w];
    }
  }

  lemma {:induction false} WinnerCounts(uris: seq<string>, scripts: seq<Script>, failures: map<string, nat>, w: nat, u: string)
    requires |uris| == |scripts| && FirstOk(scripts, w)
    ensures Count(TryUpstreams(uris, scripts, failures).failures, u) == Count(failures, u) + multiset(uris[..w])[u]
    decreases w
  {
    if w > 0 {
      FirstOkTail(scripts, w);
      WinnerCounts(uris[1..], scripts[1..], Bump(failures, uris[0]), w - 1, u);
      BumpCount(failures, uris[0], u);
      MultisetCons(uris, w, u);
    }
  }

  /**
   * When attempt `w` is the first to succeed: the URIs up to `w` are contacted in
   * order and no later one is; the client receives what those attempts relayed;
   * the winner's own buffer is the result; and each earlier URI's counter rises by
   * one per failed attempt.
   */
  lemma WinnerIsFirstOk(uris: seq<string>, scripts: seq<Script>, failures: map<string, nat>, w: nat)
    requires |uris| == |scripts| && FirstOk(scripts, w)
    ensures var r := TryUpstreams(uris, scripts, failures);
      && r.winner == Some(Run(scripts[w]).relayed)
      && r.tried == uris[..w + 1]
      && r.sent == RelayedBy(scripts[..w + 1])
      && forall u :: Count(r.failures, u) == Count(failures, u) + multiset(uris[..w])[u]
  {
    WinnerRelays(uris, scripts, failures, w);
    forall u
      ensures Count(TryUpstreams(uris, scripts, failures).failures, u) == Count(failures, u) + multiset(uris[..w])[u]
    {
      WinnerCounts(uris, scripts, failures, w, u);
    }
  }

  lemma NoneOkTail(scripts: seq<Script>)
    requires scripts != [] && NoneOk(scripts)
    ensures !Run(scripts[0]).ok && NoneOk(scripts[1..])
  {
    forall i | 0 <= i < |scripts[1..]|
      ensures !Run(scripts[1..][i]).ok
    {
      assert scripts[1..][i] == scripts[i + 1];
    }
  }

  lemma {:induction false} ExhaustedCounts(uris: seq<string>, scripts: seq<Script>, failures: map<string, nat>, u: string)
    requires |uris| == |scripts| && NoneOk(scripts)
    ensures Count(TryUpstreams(uris, scripts, failures).failures, u) == Count(failures, u) + multiset(uris)[u]
    decreases |uris|
  {
    if uris != [] {
      NoneOkTail(scripts);
      ExhaustedCounts(uris[1..], scripts[1..], Bump(failures, uris[0]), u);
      BumpCount(failures, uris[0], u);
      MultisetCons(uris, |uris|, u);
      assert uris[..|uris|] == uris && uris[1..][..|uris| - 1] == uris[1..];
    }
  }

  /**
   * When every attempt fails: every URI is contacted once, in order; the client
   * receives everything the attempts relayed before raising; there is no winner;
   * and every URI's counter rises once per occurrence in the list.
   */
  lemma {:induction false} ExhaustedWhenNoneOk(uris: seq<string>, scripts: seq<Script>, failures: map<string, nat>)
    requires |uris| == |scripts| && NoneOk(scripts)
    ensures var r := TryUpstreams(uris, scripts, failures);
      && r.winner == None
      && r.tried == uris
      && r.sent == RelayedBy(scripts)
      && forall u :: Count(r.failures, u) == Count(failures, u) + multiset(uris)[u]
    decreases |uris|
  {
    if uris != [] {
      NoneOkTail(scripts);
      ExhaustedWhenNoneOk(uris[1..], scripts[1..], Bump(failures, uris[0]));
    }
    forall u
      ensures Count(TryUpstreams(uris, scripts, failures).failures, u) == Count(failures, u) + multiset(uris)[u]
    {
      ExhaustedCounts(uris, scripts, failures, u);
    }
  }

  /**
   * Every run of the failover loop ends one of two ways: a winner exactly when
   * some attempt succeeds, and then it is the first such attempt with nothing
   * contacted after it; otherwise exhaustion, with every URI contacted.
   */
  lemma WinnerOrExhausted(uris: seq<string>, scripts: seq<Script>, failures: map<string, nat>)
    requires |uris| == |scripts|
    ensures var r := TryUpstreams(uris, scripts, failures);
      && (r.winner.Some? <==> exists i :: 0 <= i < |scripts| && Run(scripts[i]).ok)
      && (r.winner.None? ==> r.tried == uris && r.sent == RelayedBy(scripts))
      && (r.winner.Some? ==> exists w: nat :: FirstOk(scripts, w) && r.tried == uris[..w + 1]
                                        && r.winner == Some(Run(scripts[w]).relayed)
                                        && r.sent == RelayedBy(scripts[..w + 1]))
  {
    FirstOkOrNone(scripts);
    if NoneOk(scripts) {
      ExhaustedWhenNoneOk(uris, scripts, failures);
    } else {
      var w :| FirstOk(scripts, w);
      WinnerIsFirstOk(uris, scripts, failures, w);
    }
  }

  // ---------------------------------------------------------------------------
  // Discovery

  /** The proxy's own identity, used in renamed programs and in the fallback reply. */
  datatype ProxyInfo = ProxyInfo(name: string, description: string, version: string,
                                 attributionName: string, attributionUrl: string)

  /**
   * One upstream's behaviour for a `describe`: raising anywhere in the attempt
   * (including a reply that does not parse as `info`), or replying with one event,
   * or with end-of-stream (`None`).
   */
  datatype DescribeScript = DescribeFails | DescribeReply(reply: Option<Event>)

  /** The upstream answered with an `info` event. */
  predicate AnswersInfo(d: DescribeScript) {
    d.DescribeReply? && d.reply.Some? && d.reply.value.Info?
  }

  /** A TTS program as the proxy advertises it. */
  function ViaProxy(p: TtsProgram, proxyName: string): TtsProgram {
    p.(name := p.name + " (via " + proxyName + ")", voices := Some(p.voices.GetOr([])))
  }

  /**
   * The upstream's `info` with every TTS program renamed after the proxy. Program
   * count and order, every other program field and every other service are kept;
   * a missing voice list becomes an empty one.
   */
  function RewriteInfo(body: InfoBody, proxyName: string): (r: InfoBody)
    ensures r.services == body.services && |r.tts| == |body.tts|
    ensures forall i :: 0 <= i < |body.tts| ==>
      && r.tts[i].name == body.tts[i].name + " (via " + proxyName + ")"
      && r.tts[i].description == body.tts[i].description
      && r.tts[i].attribution == body.tts[i].attribution
      && r.tts[i].installed == body.tts[i].installed
      && r.tts[i].version == body.tts[i].version
      && r.tts[i].supportsStreaming == body.tts[i].supportsStreaming
      && r.tts[i].voices == Some(if body.tts[i].voices.Some? then body.tts[i].voices.value else [])
  {
    InfoBody(seq(|body.tts|, i requires 0 <= i < |body.tts| => ViaProxy(body.tts[i], proxyName)), body.services)
  }

  /**
   * The reply sent when no upstream answers: a single installed TTS program named
   * after the proxy, with no voices and nothing else advertised.
   */
  function FallbackInfo(proxy: ProxyInfo): (r: InfoBody)
    ensures |r.tts| == 1 && r.tts[0].name == proxy.name && r.tts[0].voices == Some([])
    ensures r.services == NoServices
  {
    InfoBody(
      [TtsProgram(proxy.name, Some(proxy.description), Attribution(proxy.attributionName, proxy.attributionUrl),
                  true, Some(proxy.version), Some([]), false)],
      NoServices)
  }

  datatype DescribeOutcome = DescribeOutcome(reply: Event, failures: map<string, nat>, tried: seq<string>)

  /**
   * The discovery loop: the first upstream whose reply is `info` wins and is
   * rewritten; a raising upstream is counted as a failure; a reply of any other
   * kind (or none) moves on without counting.
   */
  function DescribeUpstreams(proxy: ProxyInfo, uris: seq<string>, scripts: seq<DescribeScript>,
                             failures: map<string, nat>): (r: DescribeOutcome)
    requires |uris| == |scripts|
    ensures r.reply.Info?
    ensures |r.tried| <= |uris| && r.tried == uris[..|r.tried|]
    decreases |uris|
  {
    if uris == [] then DescribeOutcome(Info(FallbackInfo(proxy)), failures, [])
    else if AnswersInfo(scripts[0]) then
      DescribeOutcome(Info(RewriteInfo(scripts[0].reply.value.info, proxy.name)), failures, [uris[0]])
    else
      var counted := if scripts[0].DescribeFails? then Bump(failures, uris[0]) else failures;
      var rest := DescribeUpstreams(proxy, uris[1..], scripts[1..], counted);
      assert uris == [uris[0]] + uris[1..];
      DescribeOutcome(rest.reply, rest.failures, [uris[0]] + rest.tried)
  }

  /** The URIs whose describe attempt raised, in order. */
  function Raised(uris: seq<string>, scripts: seq<DescribeScript>): seq<string>
    requires |uris| == |scripts|
  {
    if uris == [] then []
    else (if scripts[0].DescribeFails? then [uris[0]] else []) + Raised(uris[1..], scripts[1..])
  }

  /** Attempt `w` is the first whose reply is `info`. */
  ghost predicate FirstInfo(scripts: seq<DescribeScript>, w: nat) {
    w < |scripts| && AnswersInfo(scripts[w]) && forall i :: 0 <= i < w ==> !AnswersInfo(scripts[i])
  }

  lemma FirstInfoTail(scripts: seq<DescribeScript>, w: nat)
    requires w > 0 && FirstInfo(scripts, w)
    ensures !AnswersInfo(scripts[0]) && FirstInfo(scripts[1..], w - 1)
  {
    forall i | 0 <= i < w - 1
      ensures !AnswersInfo(scripts[1..][i])
    {
      assert scripts[1..][i] == scripts[i + 1];
    }
  }

  lemma NoInfoTail(scripts: seq<DescribeScript>)
    requires scripts != [] && forall i :: 0 <= i < |scripts| ==> !AnswersInfo(scripts[i])
    ensures !AnswersInfo(scripts[0]) && forall i :: 0 <= i < |scripts[1..]| ==> !AnswersInfo(scripts[1..][i])
  {
    forall i | 0 <= i < |scripts[1..]|
      ensures !AnswersInfo(scripts[1..][i])
    {
      assert scripts[1..][i] == scripts[i + 1];
    }
  }

  lemma RaisedCons(uris: seq<string>, scripts: seq<DescribeScript>, n: nat, u: string)
    requires |uris| == |scripts| && 0 < n <= |uris|
    ensures multiset(Raised(uris[..n], scripts[..n]))[u]
         == (if scripts[0].DescribeFails? && u == uris[0] then 1 else 0)
          + multiset(Raised(uris[1..][..n - 1], scripts[1..][..n - 1]))[u]
  {
    assert uris[..n][1..] == uris[1..][..n - 1];
    assert scripts[..n][1..] == scripts[1..][..n - 1];
    var head := if scripts[0].DescribeFails? then [uris[0]] else [];
    assert Raised(uris[..n], scripts[..n]) == head + Raised(uris[1..][..n - 1], scripts[1..][..n - 1]);
  }

  lemma {:induction false} DescribeWinnerReply(proxy: ProxyInfo, uris: seq<string>, scripts: seq<DescribeScript>,
                                               failures: map<string, nat>, w: nat)
    requires |uris| == |scripts| && FirstInfo(scripts, w)
    ensures var r := DescribeUpstreams(proxy, uris, scripts, failures);
      && r.reply == Info(RewriteInfo(scripts[w].reply.value.info, proxy.name))
      && r.tried == uris[..w + 1]
    decreases w
  {
    if w > 0 {
      FirstInfoTail(scripts, w);
      var counted := if scripts[0].DescribeFails? then Bump(failures, uris[0]) else failures;
      DescribeWinnerReply(proxy, uris[1..], scripts[1..], counted, w - 1);
      assert uris[..w + 1] == [uris[0]] + uris[1..][..w];
    }
  }

  lemma {:induction false} DescribeWinnerCounts(proxy: ProxyInfo, uris: seq<string>, scripts: seq<DescribeScript>,
                                                failures: map<string, nat>, w: nat, u: string)
    requires |uris| == |scripts| && FirstInfo(scripts, w)
    ensures Count(DescribeUpstreams(proxy, uris, scripts, failures).failures, u)
         == Count(failures, u) + multiset(Raised(uris[..w], scripts[..w]))[u]
    decreases w
  {
    if w == 0 {
      assert Raised(uris[..0], scripts[..0]) == [];
    } else {
      FirstInfoTail(scripts, w);
      var counted := if scripts[0].DescribeFails? then Bump(failures, uris[0]) else failures;
      DescribeWinnerCounts(proxy, uris[1..], scripts[1..], counted, w - 1, u);
      BumpCount(failures, uris[0], u);
      RaisedCons(uris, scripts, w, u);
    }
  }

  /**
   * When attempt `w` is the first to answer `info`: its rewritten reply is sent,
   * the URIs after it are never contacted, and only the raising ones before it are
   * counted as failures.
   */
  lemma DescribeWinner(proxy: ProxyInfo, uris: seq<string>, scripts: seq<DescribeScript>,
                       failures: map<string, nat>, w: nat)
    requires |uris| == |scripts| && FirstInfo(scripts, w)
    ensures var r := DescribeUpstreams(proxy, uris, scripts, failures);
      && r.reply == Info(RewriteInfo(scripts[w].reply.value.info, proxy.name))
      && r.tried == uris[..w + 1]
      && forall u :: Count(r.failures, u) == Count(failures, u) + multiset(Raised(uris[..w], scripts[..w]))[u]
  {
    DescribeWinnerReply(proxy, uris, scripts, failures, w);
    forall u
      ensures Count(DescribeUpstreams(proxy, uris, scripts, failures).failures, u)
           == Count(failures, u) + multiset(Raised(uris[..w], scripts[..w]))[u]
    {
      DescribeWinnerCounts(proxy, uris, scripts, failures, w, u);
    }
  }

  lemma {:induction false} DescribeFallbackCounts(proxy: ProxyInfo, uris: seq<string>, scripts: seq<DescribeScript>,
                                                  failures: map<string, nat>, u: string)
    requires |uris| == |scripts|
    requires forall i :: 0 <= i < |scripts| ==> !AnswersInfo(scripts[i])
    ensures Count(DescribeUpstreams(proxy, uris, scripts, failures).failures, u)
         == Count(failures, u) + multiset(Raised(uris, scripts))[u]
    decreases |uris|
  {
    if uris != [] {
      NoInfoTail(scripts);
      var counted := if scripts[0].DescribeFails? then Bump(failures, uris[0]) else failures;
      DescribeFallbackCounts(proxy, uris[1..], scripts[1..], counted, u);
      BumpCount(failures, uris[0], u);
      var head := if scripts[0].DescribeFails? then [uris[0]] else [];
      assert multiset(Raised(uris, scripts)) == multiset(head) + multiset(Raised(uris[1..], scripts[1..]));
      assert DescribeUpstreams(proxy, uris, scripts, failures).failures
          == DescribeUpstreams(proxy, uris[1..], scripts[1..], counted).failures;
    }
  }

  /**
   * When no upstream answers `info`: every URI is contacted, exactly one fallback
   * `info` is sent, and only the raising attempts are counted as failures.
   */
  lemma {:induction false} DescribeFallback(proxy: ProxyInfo, uris: seq<string>, scripts: seq<DescribeScript>,
                                            failures: map<string, nat>)
    requires |uris| == |scripts|
    requires forall i :: 0 <= i < |scripts| ==> !AnswersInfo(scripts[i])
    ensures var r := DescribeUpstreams(proxy, uris, scripts, failures);
      && r.reply == Info(FallbackInfo(proxy))
      && r.tried == uris
      && forall u :: Count(r.failures, u) == Count(failures, u) + multiset(Raised(uris, scripts))[u]
    decreases |uris|
  {
    if uris != [] {
      NoInfoTail(scripts);
      var counted := if scripts[0].DescribeFails? then Bump(failures, uris[0]) else failures;
      DescribeFallback(proxy, uris[1..], scripts[1..], counted);
    }
    forall u
      ensures Count(DescribeUpstreams(proxy, uris, scripts, failures).failures, u)
           == Count(failures, u) + multiset(Raised(uris, scripts))[u]
    {
      DescribeFallbackCounts(proxy, uris, scripts, failures, u);
    }
  }
}

=== FILE: handler.dfy ===
/**
 * The per-connection event handler of the proxy as one pure step function: from the
 * connection's state (streaming session, cache, metric counters), one client event
 * and the scripted behaviour of the upstreams, to the new state, the events written
 * to the client, and the upstream URIs contacted together with the request sent.
 */
module Handler {
  import opened Options
  import opened Events
  import Normalizer
  import AudioCache
  import opened Failover

  /** The streaming accumulator: `is_streaming`, `streaming_voice`, `streaming_text_chunks`. */
  datatype Session = Session(active: bool, voice: Option<string>, chunks: seq<string>)

  /** The state a connection starts in and returns to after each streamed request. */
  const Idle := Session(false, None, [])

  /** An idle session carries no leftover voice or chunks. */
  predicate SessionValid(s: Session) {
    !s.active ==> s == Idle
  }

  /**
   * The handler's fixed inputs: the proxy's identity, the upstream URIs in priority
   * order, the optional SSML template, the two "force streaming" switches
   * (`cli_args.stream_tts` and `config.stream_tts`), and the normaliser.
   */
  datatype Config = Config(
    proxy: ProxyInfo,
    uris: seq<string>,
    ssmlTemplate: Option<string>,
    cliStreamTts: bool,
    configStreamTts: bool,
    normalizer: Normalizer.Config,
    ops: Normalizer.Ops)

  /** The counters the handler increments: requests, cache hits, upstream failures per URI. */
  datatype Metrics = Metrics(requests: nat, cacheHits: nat, failures: map<string, nat>)

  /** `REQUESTS_TOTAL.inc()`: one more request, nothing else changes. */
  function CountRequest(m: Metrics): Metrics {
    m.(requests := m.requests + 1)
  }

  /** Everything a step reads and writes besides the client stream. */
  datatype Conn = Conn(session: Session, cache: AudioCache.Cache, metrics: Metrics)

  /**
   * What the outside world does while one client event is handled: each upstream's
   * describe and synthesis behaviour (in list order) and how the cache write ends.
   */
  datatype Env = Env(describe: seq<DescribeScript>, synth: seq<Script>, cacheWrite: AudioCache.WriteIo)

  predicate EnvFits(cfg: Config, env: Env) {
    |env.describe| == |cfg.uris| && |env.synth| == |cfg.uris|
  }

  /**
   * The result of handling one event: the value `handle_event` returns, the new
   * state, the events written to the client in order, the upstream URIs contacted
   * in order, and the request written to each of them.
   */
  datatype Step = Step(keepOpen: bool, conn: Conn, sent: seq<Event>, tried: seq<string>, request: seq<Event>)

  /** The reply to a text that normalises to nothing: 16 kHz, 16-bit, mono silence. */
  const EmptyAudio: seq<Event> := [AudioStart(16000, 2, 1), AudioStop]

  const AllFailedMessage := "All upstream TTS services failed."

  const Placeholder := "{{text}}"

  // ---------------------------------------------------------------------------
  // Template substitution

  /** `pat` occurs in `s` at position `i`. */
  predicate MatchAt(s: string, i: int, pat: string) {
    0 <= i && i + |pat| <= |s| && s[i..i + |pat|] == pat
  }

  /** Python's `s.replace(pat, rep)`: every non-overlapping occurrence, left to right. */
  function ReplaceAll(s: string, pat: string, rep: string): string
    requires pat != []
    decreases |s|
  {
    if |s| < |pat| then s
    else if s[..|pat|] == pat then rep + ReplaceAll(s[|pat|..], pat, rep)
    else [s[0]] + ReplaceAll(s[1..], pat, rep)
  }

  /** An occurrence in the tail of `s` is an occurrence in `s`, one position later. */
  lemma MatchShift(s: string, i: int, pat: string)
    requires s != [] && MatchAt(s[1..], i, pat)
    ensures MatchAt(s, i + 1, pat)
  {
    assert s[1..][i..i + |pat|] == s[i + 1..i + 1 + |pat|];
  }

  /** Where no occurrence starts, the first character is copied and the scan moves on. */
  lemma ReplaceAllStep(s: string, pat: string, rep: string)
    requires pat != [] && s != [] && !MatchAt(s, 0, pat)
    ensures ReplaceAll(s, pat, rep) == [s[0]] + ReplaceAll(s[1..], pat, rep)
  {
    assert s == [s[0]] + s[1..];
    if |s| < |pat| {
      ReplaceAllShort(s[1..], pat, rep);
    }
  }

  /** Text shorter than the pattern is left as it is. */
  lemma ReplaceAllShort(s: string, pat: string, rep: string)
    requires pat != [] && |s| < |pat|
    ensures ReplaceAll(s, pat, rep) == s
  {
  }

  /** A prefix in which no occurrence starts is copied unchanged. */
  lemma {:induction false} ReplaceAllCopies(pre: string, rest: string, pat: string, rep: string)
    requires pat != []
    requires forall i :: 0 <= i < |pre| ==> !MatchAt(pre + rest, i, pat)
    ensures ReplaceAll(pre + rest, pat, rep) == pre + ReplaceAll(rest, pat, rep)
    decreases |pre|
  {
    if pre == [] {
      assert pre + rest == rest;
    } else {
      var s := pre + rest;
      ReplaceAllStep(s, pat, rep);
      NoMatchInTail(pre, rest, pat);
      ReplaceAllCopies(pre[1..], rest, pat, rep);
      var done := ReplaceAll(rest, pat, rep);
      assert s[1..] == pre[1..] + rest;
      assert [pre[0]] + (pre[1..] + done) == pre + done;
    }
  }

  /** No occurrence starting in `pre` means none starting in its tail. */
  lemma NoMatchInTail(pre: string, rest: string, pat: string)
    requires pre != []
    requires forall i :: 0 <= i < |pre| ==> !MatchAt(pre + rest, i, pat)
    ensures forall i :: 0 <= i < |pre| - 1 ==> !MatchAt(pre[1..] + rest, i, pat)
  {
    var s := pre + rest;
    assert s[1..] == pre[1..] + rest;
    forall i | 0 <= i < |pre| - 1
      ensures !MatchAt(pre[1..] + rest, i, pat)
    {
      if MatchAt(s[1..], i, pat) {
        MatchShift(s, i, pat);
      }
    }
  }

  /**
   * The leftmost occurrence is replaced and the scan resumes right after it: with
   * `ReplaceAllNoMatch` for text without the pattern, this determines the result
   * for every text.
   */
  lemma ReplaceAllLeftmost(a: string, b: string, pat: string, rep: string)
    requires pat != []
    requires forall i :: 0 <= i < |a| ==> !MatchAt(a + pat + b, i, pat)
    ensures ReplaceAll(a + pat + b, pat, rep) == a + rep + ReplaceAll(b, pat, rep)
  {
    assert a + pat + b == a + (pat + b);
    ReplaceAllCopies(a, pat + b, pat, rep);
    var t := pat + b;
    assert t[..|pat|] == pat && t[|pat|..] == b;
  }

  /** Text in which the pattern never occurs is left as it is. */
  lemma ReplaceAllNoMatch(s: string, pat: string, rep: string)
    requires pat != []
    requires forall i :: 0 <= i < |s| ==> !MatchAt(s, i, pat)
    ensures ReplaceAll(s, pat, rep) == s
  {
    assert s + [] == s;
    ReplaceAllCopies(s, [], pat, rep);
  }

  /** Text where the pattern cannot start is left as it is. */
  lemma ReplaceAllAbsent(s: string, pat: string, rep: string)
    requires pat != [] && pat[0] !in s
    ensures ReplaceAll(s, pat, rep) == s
  {
    forall i | 0 <= i < |s| ensures !MatchAt(s, i, pat) { }
    ReplaceAllNoMatch(s, pat, rep);
  }

  /** A prefix in which the pattern cannot start is copied unchanged. */
  lemma ReplaceAllSkip(pre: string, rest: string, pat: string, rep: string)
    requires pat != [] && pat[0] !in pre
    ensures ReplaceAll(pre + rest, pat, rep) == pre + ReplaceAll(rest, pat, rep)
  {
    forall i | 0 <= i < |pre| ensures !MatchAt(pre + rest, i, pat) { }
    ReplaceAllCopies(pre, rest, pat, rep);
  }

  /** `final_text`: the SSML template with every `{{text}}` replaced, when a non-empty template is set. */
  function Wrap(template: Option<string>, text: string): string {
    if template.Some? && template.value != [] then ReplaceAll(template.value, Placeholder, text) else text
  }

  /**
   * Wrapping replaces the template's first `{{text}}` by the text and carries on
   * with the rest of the template, so every placeholder is filled in.
   */
  lemma WrapFillsLeftmost(pre: string, post: string, text: string)
    requires forall i :: 0 <= i < |pre| ==> !MatchAt(pre + Placeholder + post, i, Placeholder)
    ensures Wrap(Some(pre + Placeholder + post), text) == pre + text + ReplaceAll(post, Placeholder, text)
  {
    ReplaceAllLeftmost(pre, post, Placeholder, text);
  }

  /** A non-empty template without a placeholder is sent as it is, whatever the text. */
  lemma WrapWithoutPlaceholder(template: string, text: string)
    requires template != []
    requires forall i :: 0 <= i < |template| ==> !MatchAt(template, i, Placeholder)
    ensures Wrap(Some(template), text) == template
  {
    ReplaceAllNoMatch(template, Placeholder, text);
  }

  /**
   * A template holding one placeholder and no other `{` wraps the text between the
   * surrounding parts; with no template, or an empty one, the text is sent as it is.
   */
  lemma WrapSurrounds(pre: string, post: string, text: string)
    requires '{' !in pre && '{' !in post
    ensures Wrap(Some(pre + Placeholder + post), text) == pre + text + post
    ensures Wrap(None, text) == text && Wrap(Some([]), text) == text
  {
    var template := pre + Placeholder + post;
    assert template == pre + (Placeholder + post);
    ReplaceAllSkip(pre, Placeholder + post, Placeholder, text);
    var s := Placeholder + post;
    assert s[..|Placeholder|] == Placeholder && s[|Placeholder|..] == post;
    ReplaceAllAbsent(post, Placeholder, text);
  }

  // ---------------------------------------------------------------------------
  // The synthesis pipeline

  /** The normalised text a request is looked up, cached and sent under. */
  function NormalizedOf(cfg: Config, text: string): string {
    Normalizer.Normalize(cfg.normalizer, cfg.ops, text)
  }

  /** How a synthesis request ended. */
  datatype Verdict = Silence | Replayed | Delivered | Exhausted

  datatype Synthesis = Synthesis(
    outcome: Verdict, cache: AudioCache.Cache, metrics: Metrics,
    sent: seq<Event>, tried: seq<string>, request: seq<Event>)

  /** The marker the streaming path appends after a replay or an exhaustion. */
  function StoppedMarker(streaming: bool): seq<Event> {
    if streaming then [SynthesizeStopped] else []
  }

  /** The request written to each upstream: one `synthesize`, or the start/chunk/stop triple. */
  function Request(cfg: Config, normalized: string, voice: Option<string>, streaming: bool): seq<Event> {
    var finalText := Wrap(cfg.ssmlTemplate, normalized);
    if streaming || cfg.cliStreamTts || cfg.configStreamTts then
      [SynthesizeStart(voice), SynthesizeChunk(finalText), SynthesizeStop]
    else
      [Synthesize(finalText, voice)]
  }

  /**
   * The pipeline shared by `_handle_synthesize` (`streaming` false) and
   * `_handle_synthesize_stop` (`streaming` true), from the normalised text on:
   * answer silence for an empty text; replay a non-empty cache entry; otherwise fail over across the
   * upstreams, caching the winner's buffer under the normalised text or reporting
   * exhaustion.
   */
  function RunPipeline(cfg: Config, cache: AudioCache.Cache, metrics: Metrics, normalized: string,
                       voice: Option<string>, streaming: bool, env: Env): (r: Synthesis)
    requires |env.synth| == |cfg.uris|
    ensures r.metrics.requests == metrics.requests
    ensures r.outcome == Silence <==> normalized == []
    ensures r.outcome in {Silence, Replayed} ==> r.tried == [] && r.cache == cache
    ensures r.outcome == Silence ==> r.sent == EmptyAudio && r.metrics == metrics
    ensures r.outcome == Exhausted ==> r.cache == cache && r.tried == cfg.uris
    ensures r.outcome == Replayed ==> r.metrics.cacheHits == metrics.cacheHits + 1
    ensures r.outcome != Replayed ==> r.metrics.cacheHits == metrics.cacheHits
  {
    if normalized == [] then
      Synthesis(Silence, cache, metrics, EmptyAudio, [], [])
    else
      var cached := AudioCache.Get(cache, normalized, voice);
      if cached.Some? && cached.value != [] then
        Synthesis(Replayed, cache, metrics.(cacheHits := metrics.cacheHits + 1),
                  cached.value + StoppedMarker(streaming), [], [])
      else
        var request := Request(cfg, normalized, voice, streaming);
        var f := TryUpstreams(cfg.uris, env.synth, metrics.failures);
        var counted := metrics.(failures := f.failures);
        if f.winner.Some? then
          Synthesis(Delivered, AudioCache.Set(cache, normalized, voice, f.winner.value, env.cacheWrite),
                    counted, f.sent, f.tried, request)
        else
          Synthesis(Exhausted, cache, counted, f.sent + [Error(AllFailedMessage)] + StoppedMarker(streaming),
                    f.tried, request)
  }

  // ---------------------------------------------------------------------------
  // The event handler

  /** `"".join(chunks)`. */
  function Join(chunks: seq<string>): string {
    if chunks == [] then [] else chunks[0] + Join(chunks[1..])
  }

  /**
   * `_handle_describe`: ask the upstreams in order and send the first `info`
   * rewritten for the proxy, or the proxy's own fallback `info`.
   */
  function DescribeStep(cfg: Config, conn: Conn, env: Env): Step
    requires EnvFits(cfg, env)
  {
    var d := DescribeUpstreams(cfg.proxy, cfg.uris, env.describe, conn.metrics.failures);
    Step(true, Conn(conn.session, conn.cache, conn.metrics.(failures := d.failures)), [d.reply], d.tried, [Describe])
  }

  /** `_handle_synthesize_chunk` on an active session: the chunk is appended. */
  function AddChunk(s: Session, text: string): Session {
    s.(chunks := s.chunks + [text])
  }

  /** `_handle_synthesize`: one more request, then the one-shot pipeline; the session is untouched. */
  function SynthesizeOnce(cfg: Config, conn: Conn, text: string, voice: Option<string>, env: Env): Step
    requires EnvFits(cfg, env)
  {
    var p := RunPipeline(cfg, conn.cache, CountRequest(conn.metrics), NormalizedOf(cfg, text), voice, false, env);
    Step(true, Conn(conn.session, p.cache, p.metrics), p.sent, p.tried, p.request)
  }

  /**
   * `_handle_synthesize_stop` on an active session: the streaming pipeline on the
   * joined chunks and the session's voice; the session is reset whatever happens.
   */
  function StopSession(cfg: Config, conn: Conn, env: Env): Step
    requires EnvFits(cfg, env)
  {
    var p := RunPipeline(cfg, conn.cache, conn.metrics, NormalizedOf(cfg, Join(conn.session.chunks)),
                         conn.session.voice, true, env);
    Step(true, Conn(Idle, p.cache, p.metrics), p.sent, p.tried, p.request)
  }

  /** Events the handler dispatches on; every other kind is ignored. */
  predicate Handled(ev: Event) {
    ev.Describe? || ev.Synthesize? || ev.SynthesizeStart? || ev.SynthesizeChunk? || ev.SynthesizeStop?
  }

  /** `handle_event`: dispatch by kind; the connection is always kept open. */
  function HandleEvent(cfg: Config, conn: Conn, ev: Event, env: Env): (r: Step)
    requires EnvFits(cfg, env)
    ensures r.keepOpen
    ensures !Handled(ev) ==> r.conn == conn && r.sent == [] && r.tried == []
    ensures ev.SynthesizeStart? ==>
      && r.conn == conn.(session := Session(true, ev.startVoice, []),
                         metrics := CountRequest(conn.metrics))
      && r.sent == [] && r.tried == []
    ensures ev.SynthesizeChunk? ==>
      && r.conn.session == (if conn.session.active
                            then conn.session.(chunks := conn.session.chunks + [ev.chunkText])
                            else conn.session)
      && r.conn.cache == conn.cache && r.conn.metrics == conn.metrics
      && r.sent == [] && r.tried == []
    ensures ev.SynthesizeStop? && !conn.session.active ==> r.conn == conn && r.sent == [] && r.tried == []
    ensures ev.SynthesizeStop? && conn.session.active ==> r.conn.session == Idle
    ensures ev.Describe? || ev.Synthesize? ==> r.conn.session == conn.session
    ensures ev.Describe? ==> |r.sent| == 1 && r.sent[0].Info? && r.conn.cache == conn.cache
  {
    match ev
    case Describe =>
      DescribeStep(cfg, conn, env)
    case Synthesize(text, voice) =>
      SynthesizeOnce(cfg, conn, text, voice, env)
    case SynthesizeStart(voice) =>
      var counted := CountRequest(conn.metrics);
      Step(true, Conn(Session(true, voice, []), conn.cache, counted), [], [], [])
    case SynthesizeChunk(text) =>
      if conn.session.active then
        Step(true, Conn(AddChunk(conn.session, text), conn.cache, conn.metrics), [], [], [])
      else
        Step(true, conn, [], [], [])
    case SynthesizeStop =>
      if !conn.session.active then Step(true, conn, [], [], [])
      else StopSession(cfg, conn, env)
    case _ =>
      Step(true, conn, [], [], [])
  }

  // ---------------------------------------------------------------------------
  // Properties of one synthesis request

  /** A lookup that `if cached_events:` accepts: a stored, non-empty event list. */
  predicate IsHit(cache: AudioCache.Cache, normalized: string, voice: Option<string>) {
    var cached := AudioCache.Get(cache, normalized, voice);
    cached.Some? && cached.value != []
  }

  /**
   * A cache hit replays the stored events verbatim and in order, with no upstream
   * contact and no cache write; the streaming path appends one `synthesize-stopped`.
   */
  lemma CacheHitReplays(cfg: Config, cache: AudioCache.Cache, metrics: Metrics, normalized: string,
                        voice: Option<string>, streaming: bool, env: Env)
    requires |env.synth| == |cfg.uris|
    requires normalized != [] && IsHit(cache, normalized, voice)
    ensures var r := RunPipeline(cfg, cache, metrics, normalized, voice, streaming, env);
      && r.outcome == Replayed
      && r.sent == AudioCache.Get(cache, normalized, voice).value + StoppedMarker(streaming)
      && r.tried == [] && r.cache == cache
  {
  }

  /** A stored but empty event list is a miss: the request goes to the upstreams. */
  lemma EmptyEntryIsMiss(cfg: Config, cache: AudioCache.Cache, metrics: Metrics, normalized: string,
                         voice: Option<string>, streaming: bool, env: Env)
    requires |env.synth| == |cfg.uris|
    requires normalized != [] && AudioCache.Get(cache, normalized, voice) == Some([])
    ensures var r := RunPipeline(cfg, cache, metrics, normalized, voice, streaming, env);
      && r.outcome in {Delivered, Exhausted}
      && r.tried == cfg.uris[..|r.tried|]
      && r.metrics.cacheHits == metrics.cacheHits
  {
  }

  /**
   * When attempt `w` is the first to succeed on a miss: the URIs up to `w` are tried
   * in order with the same request, the client gets everything they relayed, and the
   * winner's buffer alone is written to the cache under the normalised text.
   */
  lemma PipelineDelivers(cfg: Config, cache: AudioCache.Cache, metrics: Metrics, normalized: string,
                         voice: Option<string>, streaming: bool, env: Env, w: nat)
    requires |env.synth| == |cfg.uris|
    requires normalized != [] && !IsHit(cache, normalized, voice)
    requires FirstOk(env.synth, w)
    ensures var r := RunPipeline(cfg, cache, metrics, normalized, voice, streaming, env);
      && r.outcome == Delivered
      && r.sent == RelayedBy(env.synth[..w + 1])
      && r.tried == cfg.uris[..w + 1]
      && r.request == Request(cfg, normalized, voice, streaming)
      && r.cache == AudioCache.Set(cache, normalized, voice, Run(env.synth[w]).relayed, env.cacheWrite)
      && forall u :: Count(r.metrics.failures, u) == Count(metrics.failures, u) + multiset(cfg.uris[..w])[u]
  {
    WinnerIsFirstOk(cfg.uris, env.synth, metrics.failures, w);
  }

  /**
   * When every attempt fails on a miss: every URI is tried, the client gets what
   * they relayed followed by exactly one error (and `synthesize-stopped` on the
   * streaming path), and the cache is untouched.
   */
  lemma PipelineExhausts(cfg: Config, cache: AudioCache.Cache, metrics: Metrics, normalized: string,
                         voice: Option<string>, streaming: bool, env: Env)
    requires |env.synth| == |cfg.uris|
    requires normalized != [] && !IsHit(cache, normalized, voice)
    requires NoneOk(env.synth)
    ensures var r := RunPipeline(cfg, cache, metrics, normalized, voice, streaming, env);
      && r.outcome == Exhausted
      && r.sent == RelayedBy(env.synth) + [Error(AllFailedMessage)] + StoppedMarker(streaming)
      && r.tried == cfg.uris
      && r.cache == cache
      && forall u :: Count(r.metrics.failures, u) == Count(metrics.failures, u) + multiset(cfg.uris)[u]
  {
    ExhaustedWhenNoneOk(cfg.uris, env.synth, metrics.failures);
  }

  /**
   * On an enabled cache whose write succeeds, the winner's buffer can afterwards be
   * read back under the normalised text (not the template-wrapped one).
   */
  lemma DeliveredIsCached(cfg: Config, cache: AudioCache.Cache, metrics: Metrics, normalized: string,
                          voice: Option<string>, streaming: bool, env: Env, w: nat)
    requires |env.synth| == |cfg.uris| && cache.enabled && env.cacheWrite == AudioCache.WriteOk
    requires normalized != [] && !IsHit(cache, normalized, voice)
    requires FirstOk(env.synth, w)
    ensures var r := RunPipeline(cfg, cache, metrics, normalized, voice, streaming, env);
      AudioCache.Get(r.cache, normalized, voice) == Some(Run(env.synth[w]).relayed)
  {
    PipelineDelivers(cfg, cache, metrics, normalized, voice, streaming, env, w);
    AudioCache.GetAfterSet(cache, normalized, voice, Run(env.synth[w]).relayed);
  }

  /**
   * The streaming path behaves as the one-shot path on the same text and voice: same
   * outcome, upstreams, cache and counters. It adds one trailing `synthesize-stopped`
   * after a replay or an exhaustion only, and its request is the same whenever
   * streaming towards the upstreams is forced.
   */
  lemma StreamingMatchesOneShot(cfg: Config, cache: AudioCache.Cache, metrics: Metrics, normalized: string,
                                voice: Option<string>, env: Env)
    requires |env.synth| == |cfg.uris|
    ensures var oneShot := RunPipeline(cfg, cache, metrics, normalized, voice, false, env);
            var streamed := RunPipeline(cfg, cache, metrics, normalized, voice, true, env);
      && streamed.outcome == oneShot.outcome
      && streamed.cache == oneShot.cache
      && streamed.metrics == oneShot.metrics
      && streamed.tried == oneShot.tried
      && streamed.sent == oneShot.sent + (if oneShot.outcome in {Replayed, Exhausted} then [SynthesizeStopped] else [])
      && (cfg.cliStreamTts || cfg.configStreamTts ==> streamed.request == oneShot.request)
  {
    if normalized != [] && !IsHit(cache, normalized, voice) {
      var f := TryUpstreams(cfg.uris, env.synth, metrics.failures);
      if f.winner.None? {
        assert f.sent + [Error(AllFailedMessage)] + StoppedMarker(true)
            == f.sent + [Error(AllFailedMessage)] + StoppedMarker(false) + [SynthesizeStopped];
      }
    }
  }

  // ---------------------------------------------------------------------------
  // Properties of event sequences

  /** `streaming` state stays clean: an idle session never keeps a voice or chunks. */
  lemma SessionStaysValid(cfg: Config, conn: Conn, ev: Event, env: Env)
    requires EnvFits(cfg, env) && SessionValid(conn.session)
    ensures SessionValid(HandleEvent(cfg, conn, ev, env).conn.session)
  {
  }

  /** What a sequence of client events does to a connection, one event at a time. */
  datatype Trace = Trace(conn: Conn, sent: seq<Event>, tried: seq<string>)

  ghost predicate EnvsFit(cfg: Config, envs: seq<Env>) {
    forall i :: 0 <= i < |envs| ==> EnvFits(cfg, envs[i])
  }

  function HandleAll(cfg: Config, conn: Conn, events: seq<Event>, envs: seq<Env>): Trace
    requires |envs| == |events| && EnvsFit(cfg, envs)
    decreases |events|
  {
    if events == [] then Trace(conn, [], [])
    else
      var step := HandleEvent(cfg, conn, events[0], envs[0]);
      var rest := HandleAll(cfg, step.conn, events[1..], envs[1..]);
      Trace(rest.conn, step.sent + rest.sent, step.tried + rest.tried)
  }

  function ChunkEvents(chunks: seq<string>): (r: seq<Event>)
    ensures |r| == |chunks|
  {
    seq(|chunks|, i requires 0 <= i < |chunks| => SynthesizeChunk(chunks[i]))
  }

  /**
   * Chunks received during an active session are appended in arrival order, with
   * nothing sent and no upstream contact; whatever follows sees the longer session.
   */
  lemma {:induction false} ChunksAccumulate(cfg: Config, conn: Conn, chunks: seq<string>, tail: seq<Event>, envs: seq<Env>)
    requires conn.session.active
    requires |envs| == |chunks| + |tail| && EnvsFit(cfg, envs)
    ensures HandleAll(cfg, conn, ChunkEvents(chunks) + tail, envs)
         == HandleAll(cfg, conn.(session := conn.session.(chunks := conn.session.chunks + chunks)), tail, envs[|chunks|..])
    decreases |chunks|
  {
    if chunks == [] {
      assert ChunkEvents(chunks) + tail == tail;
      assert conn.session.chunks + chunks == conn.session.chunks;
      assert envs[0..] == envs;
    } else {
      var rest := ChunkEvents(chunks[1..]) + tail;
      var next := conn.(session := conn.session.(chunks := conn.session.chunks + [chunks[0]]));
      var t := HandleAll(cfg, next, rest, envs[1..]);
      var done := next.(session := next.session.(chunks := next.session.chunks + chunks[1..]));
      calc {
        HandleAll(cfg, conn, ChunkEvents(chunks) + tail, envs);
        { ChunkEventsCons(chunks, tail); }
        HandleAll(cfg, conn, [SynthesizeChunk(chunks[0])] + rest, envs);
        { HandleFirst(cfg, conn, SynthesizeChunk(chunks[0]), rest, envs);
          ChunkDispatch(cfg, conn, chunks[0], envs[0]); }
        Trace(t.conn, [] + t.sent, [] + t.tried);
        { assert [] + t.sent == t.sent && [] + t.tried == t.tried; }
        t;
        { EnvsFitSuffix(cfg, envs, 1);
          ChunksAccumulate(cfg, next, chunks[1..], tail, envs[1..]); }
        HandleAll(cfg, done, tail, envs[1..][|chunks[1..]|..]);
        { assert next.session.chunks + chunks[1..] == conn.session.chunks + chunks;
          assert envs[1..][|chunks[1..]|..] == envs[|chunks|..]; }
        HandleAll(cfg, conn.(session := conn.session.(chunks := conn.session.chunks + chunks)), tail, envs[|chunks|..]);
      }
    }
  }

  lemma ChunkEventsCons(chunks: seq<string>, tail: seq<Event>)
    requires chunks != []
    ensures ChunkEvents(chunks) + tail == [SynthesizeChunk(chunks[0])] + (ChunkEvents(chunks[1..]) + tail)
  {
    assert ChunkEvents(chunks) == [SynthesizeChunk(chunks[0])] + ChunkEvents(chunks[1..]);
  }

  /** A chunk during an active session is appended and nothing else happens. */
  lemma ChunkDispatch(cfg: Config, conn: Conn, text: string, env: Env)
    requires EnvFits(cfg, env) && conn.session.active
    ensures HandleEvent(cfg, conn, SynthesizeChunk(text), env)
         == Step(true, conn.(session := conn.session.(chunks := conn.session.chunks + [text])), [], [], [])
  {
  }

  lemma EnvsFitSuffix(cfg: Config, envs: seq<Env>, k: nat)
    requires k <= |envs| && EnvsFit(cfg, envs)
    ensures EnvsFit(cfg, envs[k..])
  {
    forall i | 0 <= i < |envs[k..]| ensures EnvFits(cfg, envs[k..][i]) {
      assert envs[k..][i] == envs[i + k];
    }
  }

  /** A trace starts with the first event's step. */
  lemma HandleFirst(cfg: Config, conn: Conn, ev: Event, rest: seq<Event>, envs: seq<Env>)
    requires |envs| == |rest| + 1 && EnvsFit(cfg, envs)
    ensures EnvsFit(cfg, envs[1..])
    ensures var step := HandleEvent(cfg, conn, ev, envs[0]);
            var t := HandleAll(cfg, step.conn, rest, envs[1..]);
      HandleAll(cfg, conn, [ev] + rest, envs) == Trace(t.conn, step.sent + t.sent, step.tried + t.tried)
  {
    EnvsFitSuffix(cfg, envs, 1);
    assert ([ev] + rest)[0] == ev && ([ev] + rest)[1..] == rest;
  }

  /** A one-event trace is that event's step followed by the empty trace. */
  lemma HandleOneUnfold(cfg: Config, conn: Conn, ev: Event, env: Env)
    requires EnvFits(cfg, env)
    ensures var step := HandleEvent(cfg, conn, ev, env);
      var r := HandleAll(cfg, step.conn, [], []);
      HandleAll(cfg, conn, [ev], [env]) == Trace(r.conn, step.sent + r.sent, step.tried + r.tried)
  {
    assert [ev][0] == ev && [env][0] == env && [ev][1..] == [] && [env][1..] == [];
  }

  /** A one-event trace is that event's step. */
  lemma HandleOne(cfg: Config, conn: Conn, ev: Event, env: Env)
    requires EnvFits(cfg, env)
    ensures var step := HandleEvent(cfg, conn, ev, env);
      HandleAll(cfg, conn, [ev], [env]) == Trace(step.conn, step.sent, step.tried)
  {
    HandleOneUnfold(cfg, conn, ev, env);
    var step := HandleEvent(cfg, conn, ev, env);
    assert HandleAll(cfg, step.conn, [], []) == Trace(step.conn, [], []);
    assert step.sent + [] == step.sent && step.tried + [] == step.tried;
  }

  /** A stop on an active session is `StopSession`. */
  lemma StopDispatch(cfg: Config, conn: Conn, env: Env)
    requires EnvFits(cfg, env) && conn.session.active
    ensures HandleEvent(cfg, conn, SynthesizeStop, env) == StopSession(cfg, conn, env)
  {
  }

  /** A start is handled by opening a fresh session and counting the request. */
  lemma StartDispatch(cfg: Config, conn: Conn, voice: Option<string>, env: Env)
    requires EnvFits(cfg, env)
    ensures HandleEvent(cfg, conn, SynthesizeStart(voice), env)
         == Step(true, Conn(Session(true, voice, []), conn.cache, CountRequest(conn.metrics)), [], [], [])
  {
  }

  /** A start opens a fresh session, counts the request and sends nothing. */
  lemma StartThen(cfg: Config, conn: Conn, voice: Option<string>, rest: seq<Event>, envs: seq<Env>)
    requires |envs| == |rest| + 1 && EnvsFit(cfg, envs)
    ensures EnvsFit(cfg, envs[1..])
    ensures HandleAll(cfg, conn, [SynthesizeStart(voice)] + rest, envs)
         == HandleAll(cfg, Conn(Session(true, voice, []), conn.cache, CountRequest(conn.metrics)), rest, envs[1..])
  {
    HandleFirst(cfg, conn, SynthesizeStart(voice), rest, envs);
    StartDispatch(cfg, conn, voice, envs[0]);
    var started := Conn(Session(true, voice, []), conn.cache, CountRequest(conn.metrics));
    var t := HandleAll(cfg, started, rest, envs[1..]);
    assert [] + t.sent == t.sent && [] + t.tried == t.tried;
  }

  /**
   * A streamed request — start with voice V, the chunks, stop — ends as a stop on
   * the session holding V and all the chunks in order: the streaming pipeline runs
   * on their concatenation and the session is left idle.
   */
  lemma StreamedRequest(cfg: Config, conn: Conn, voice: Option<string>, chunks: seq<string>, envs: seq<Env>)
    requires |envs| == |chunks| + 2 && EnvsFit(cfg, envs)
    ensures var events := [SynthesizeStart(voice)] + ChunkEvents(chunks) + [SynthesizeStop];
            var step := StopSession(cfg, Conn(Session(true, voice, chunks), conn.cache, CountRequest(conn.metrics)),
                                    envs[|envs| - 1]);
      HandleAll(cfg, conn, events, envs) == Trace(step.conn, step.sent, step.tried)
  {
    var events := [SynthesizeStart(voice)] + ChunkEvents(chunks) + [SynthesizeStop];
    var rest := ChunkEvents(chunks) + [SynthesizeStop];
    assert events == [SynthesizeStart(voice)] + rest;
    var started := Conn(Session(true, voice, []), conn.cache, CountRequest(conn.metrics));
    var full := Conn(Session(true, voice, chunks), conn.cache, CountRequest(conn.metrics));
    var env := envs[|envs| - 1];
    StartThen(cfg, conn, voice, rest, envs);
    assert HandleAll(cfg, conn, events, envs) == HandleAll(cfg, started, rest, envs[1..]);
    ChunksAccumulate(cfg, started, chunks, [SynthesizeStop], envs[1..]);
    assert started.(session := started.session.(chunks := started.session.chunks + chunks)) == full;
    assert envs[1..][|chunks|..] == [env];
    assert HandleAll(cfg, started, rest, envs[1..]) == HandleAll(cfg, full, [SynthesizeStop], [env]);
    HandleOne(cfg, full, SynthesizeStop, env);
    StopDispatch(cfg, full, env);
  }

  /**
   * Streamed and one-shot requests for the same text agree: a start/chunks/stop
   * sequence produces what one `synthesize` of the concatenated chunks produces,
   * plus a trailing `synthesize-stopped` after a replay or an exhaustion, and both
   * leave the same cache and counters.
   */
  lemma StreamedEqualsOneShot(cfg: Config, conn: Conn, voice: Option<string>, chunks: seq<string>, envs: seq<Env>)
    requires |envs| == |chunks| + 2 && EnvsFit(cfg, envs)
    ensures var t := HandleAll(cfg, conn, [SynthesizeStart(voice)] + ChunkEvents(chunks) + [SynthesizeStop], envs);
            var env := envs[|envs| - 1];
            var one := SynthesizeOnce(cfg, conn, Join(chunks), voice, env);
            var oneShot := RunPipeline(cfg, conn.cache, CountRequest(conn.metrics),
                                       NormalizedOf(cfg, Join(chunks)), voice, false, env);
      && t.conn.cache == one.conn.cache
      && t.conn.metrics == one.conn.metrics
      && t.tried == one.tried
      && t.sent == one.sent + (if oneShot.outcome in {Replayed, Exhausted} then [SynthesizeStopped] else [])
  {
    var env := envs[|envs| - 1];
    assert EnvFits(cfg, env);
    StreamedRequest(cfg, conn, voice, chunks, envs);
    StreamingMatchesOneShot(cfg, conn.cache, CountRequest(conn.metrics),
                            NormalizedOf(cfg, Join(chunks)), voice, env);
  }

  /**
   * Repeating a request the upstreams answered: on an enabled cache whose write
   * succeeded, the next request for the same normalised text and voice, on either
   * path, replays the winner's buffer and contacts no upstream.
   */
  lemma SecondRequestIsReplayed(cfg: Config, cache: AudioCache.Cache, metrics: Metrics, normalized: string,
                                voice: Option<string>, firstStreaming: bool, secondStreaming: bool,
                                first: Env, second: Env, w: nat)
    requires |first.synth| == |cfg.uris| && |second.synth| == |cfg.uris|
    requires cache.enabled && first.cacheWrite == AudioCache.WriteOk
    requires normalized != [] && !IsHit(cache, normalized, voice)
    requires FirstOk(first.synth, w) && Run(first.synth[w]).relayed != []
    ensures var one := RunPipeline(cfg, cache, metrics, normalized, voice, firstStreaming, first);
            var two := RunPipeline(cfg, one.cache, one.metrics, normalized, voice, secondStreaming, second);
      && two.outcome == Replayed
      && two.sent == Run(first.synth[w]).relayed + StoppedMarker(secondStreaming)
      && two.tried == []
      && two.cache == one.cache
  {
    var one := RunPipeline(cfg, cache, metrics, normalized, voice, firstStreaming, first);
    DeliveredIsCached(cfg, cache, metrics, normalized, voice, firstStreaming, first, w);
    CacheHitReplays(cfg, one.cache, one.metrics, normalized, voice, secondStreaming, second);
  }
}

=== FILE: normalizer.dfy ===
/**
 * The text normaliser applied to every synthesis request before the cache lookup.
 *
 * The asterisk, backtick and whitespace steps are modelled character by character.
 * The custom regular-expression replacements, the four markdown regexes and the
 * emoji library are left abstract: they are supplied as functions in `Ops`, and
 * every property below holds whatever those functions do.
 */
module Normalizer {
  import opened Options

  /** One configured custom replacement: a compiled pattern and its replacement template. */
  datatype Replacement = Replacement(pattern: string, replace: string)

  /**
   * The configuration fields the normaliser is built from. `collapseWhitespace` is
   * declared by the configuration schema but never consulted: whitespace is always
   * collapsed and stripped.
   */
  datatype Config = Config(
    normalizeMarkdown: bool,
    removeEmoji: bool,
    removeAsterisks: bool,
    collapseWhitespace: bool,
    replacements: seq<Replacement>)

  /** The configuration's defaults: only asterisk removal is on. */
  const Default := Config(false, false, true, true, [])

  /**
   * The steps whose behaviour belongs to libraries:
   * - `sub(pattern, replace, text)` is `re.sub`; `None` when it raises `re.error`;
   * - `markdown(text)` is the bold/italic, header and link regex substitutions, in order;
   * - `isEmoji(text, i)` says whether the emoji library counts position `i` of `text`
   *   as part of an emoji (`replace_emoji(text, replace="")` deletes exactly those).
   */
  datatype Ops = Ops(
    sub: (string, string, string) -> Option<string>,
    markdown: string -> string,
    isEmoji: (string, nat) -> bool)

  /** Python's `str.isspace`, which is also what `\s` matches in a `str` pattern. */
  predicate IsSpace(c: char) {
    var n := c as int;
    || 9 <= n <= 13
    || 28 <= n <= 32
    || n == 0x85 || n == 0xA0 || n == 0x1680
    || 0x2000 <= n <= 0x200A
    || n == 0x2028 || n == 0x2029 || n == 0x202F || n == 0x205F || n == 0x3000
  }

  /** The only whitespace character is the plain space. */
  predicate OnlySpaces(s: string) {
    forall i :: 0 <= i < |s| && IsSpace(s[i]) ==> s[i] == ' '
  }

  /** No two adjacent whitespace characters. */
  predicate NoDoubleSpace(s: string) {
    forall i :: 0 < i < |s| ==> !(IsSpace(s[i - 1]) && IsSpace(s[i]))
  }

  /** No leading or trailing whitespace. */
  predicate NoEdgeSpace(s: string) {
    s == [] || (!IsSpace(s[0]) && !IsSpace(s[|s| - 1]))
  }

  /** The shape every normalised text has. */
  predicate WellFormed(s: string) {
    OnlySpaces(s) && NoDoubleSpace(s) && NoEdgeSpace(s)
  }

  /** The non-whitespace characters of `s`, in order. */
  function Visible(s: string): (r: string)
    ensures forall c :: c in r <==> c in s && !IsSpace(c)
  {
    if s == [] then [] else (if IsSpace(s[0]) then [] else [s[0]]) + Visible(s[1..])
  }

  lemma {:induction false} VisibleAppend(a: string, b: string)
    ensures Visible(a + b) == Visible(a) + Visible(b)
    decreases |a|
  {
    if a == [] {
      assert a + b == b;
    } else {
      assert (a + b)[0] == a[0];
      assert (a + b)[1..] == a[1..] + b;
      VisibleAppend(a[1..], b);
    }
  }

  lemma ShapeOfSlice(s: string, a: nat, b: nat)
    requires OnlySpaces(s) && NoDoubleSpace(s)
    requires a <= b <= |s|
    ensures OnlySpaces(s[a..b]) && NoDoubleSpace(s[a..b])
  {
    var t := s[a..b];
    forall i | 0 < i < |t|
      ensures !(IsSpace(t[i - 1]) && IsSpace(t[i]))
    {
      assert t[i - 1] == s[a + i - 1] && t[i] == s[a + i];
    }
  }

  /** The number of whitespace characters `s` starts with. */
  function LeadingSpaces(s: string): (n: nat)
    ensures n <= |s|
    ensures forall i :: 0 <= i < n ==> IsSpace(s[i])
    ensures n < |s| ==> !IsSpace(s[n])
    decreases |s|
  {
    if s == [] || !IsSpace(s[0]) then 0
    else
      var n := LeadingSpaces(s[1..]);
      assert forall i :: 1 <= i < n + 1 ==> s[i] == s[1..][i - 1];
      n + 1
  }

  /** Splitting off a whitespace prefix leaves the visible characters as they were. */
  lemma VisibleAfterSpaces(s: string, n: nat)
    requires n <= |s| && forall i :: 0 <= i < n ==> IsSpace(s[i])
    ensures Visible(s[n..]) == Visible(s)
  {
    assert s == s[..n] + s[n..];
    VisibleAppend(s[..n], s[n..]);
    VisibleOfSpaces(s[..n]);
  }

  /** `str.lstrip()`: drops the leading whitespace. */
  function TrimLeft(s: string): (r: string)
    ensures |r| <= |s| && r == s[|s| - |r|..]
    ensures forall i :: 0 <= i < |s| - |r| ==> IsSpace(s[i])
    ensures r == [] || !IsSpace(r[0])
    ensures Visible(r) == Visible(s)
  {
    var n := LeadingSpaces(s);
    VisibleAfterSpaces(s, n);
    s[n..]
  }

  /** A leading whitespace character is dropped with the rest of the run. */
  lemma TrimLeftCons(s: string)
    requires s != [] && IsSpace(s[0])
    ensures TrimLeft(s) == TrimLeft(s[1..])
  {
    var n := LeadingSpaces(s[1..]);
    assert LeadingSpaces(s) == n + 1;
    assert s[n + 1..] == s[1..][n..];
  }

  /** `str.rstrip()`: drops the trailing whitespace. */
  function TrimRight(s: string): (r: string)
    ensures |r| <= |s| && r == s[..|r|]
    ensures forall i :: |r| <= i < |s| ==> IsSpace(s[i])
    ensures r == [] || !IsSpace(r[|r| - 1])
    ensures Visible(r) == Visible(s)
    decreases |s|
  {
    if s != [] && IsSpace(s[|s| - 1]) then
      var init := s[..|s| - 1];
      assert s == init + [s[|s| - 1]];
      VisibleAppend(init, [s[|s| - 1]]);
      TrimRight(init)
    else s
  }

  /** A word of `str.split()`: a non-empty run of non-whitespace characters. */
  predicate IsWord(w: string) {
    w != [] && forall j :: 0 <= j < |w| ==> !IsSpace(w[j])
  }

  /**
   * Python's `s.split()`: the maximal runs of non-whitespace characters, in order.
   * Read from the front, a visible character either extends the word that follows
   * it directly or starts a word of its own; whitespace only separates.
   */
  function Words(s: string): (r: seq<string>)
    ensures forall k :: 0 <= k < |r| ==> IsWord(r[k])
    ensures s != [] && !IsSpace(s[0]) ==> r != [] && r[0] != [] && r[0][0] == s[0]
    decreases |s|
  {
    if s == [] then []
    else
      var rest := Words(s[1..]);
      if IsSpace(s[0]) then rest
      else if |s| > 1 && !IsSpace(s[1]) then [[s[0]] + rest[0]] + rest[1..]
      else [[s[0]]] + rest
  }

  /** Python's `" ".join(words)`. */
  function JoinWords(words: seq<string>): string
    decreases |words|
  {
    if words == [] then []
    else if |words| == 1 then words[0]
    else words[0] + [' '] + JoinWords(words[1..])
  }

  /** Leading whitespace only separates: it adds no word. */
  lemma WordsSpaceCons(c: char, s: string)
    requires IsSpace(c)
    ensures Words([c] + s) == Words(s)
  {
    assert ([c] + s)[1..] == s;
  }

  /** Two texts with the same words, both starting with a visible character or neither, keep the same words behind one more visible character. */
  lemma WordsVisibleCons(c: char, s: string, t: string)
    requires !IsSpace(c) && Words(s) == Words(t)
    requires (s != [] && !IsSpace(s[0])) == (t != [] && !IsSpace(t[0]))
    ensures Words([c] + s) == Words([c] + t)
  {
    assert ([c] + s)[1..] == s && ([c] + t)[1..] == t;
  }

  lemma {:induction false} WordsTrimLeft(s: string)
    ensures Words(TrimLeft(s)) == Words(s)
    decreases |s|
  {
    if s != [] && IsSpace(s[0]) {
      TrimLeftCons(s);
      WordsTrimLeft(s[1..]);
    }
  }

  /** Trailing whitespace adds no word. */
  lemma {:induction false} WordsSpaceSnoc(s: string, c: char)
    requires IsSpace(c)
    ensures Words(s + [c]) == Words(s)
    decreases |s|
  {
    var t := s + [c];
    if s == [] {
      assert t == [c] + [];
      WordsSpaceCons(c, []);
    } else {
      assert t[1..] == s[1..] + [c];
      WordsSpaceSnoc(s[1..], c);
      assert |t| > 1 && t[1] == (if |s| > 1 then s[1] else c);
    }
  }

  lemma {:induction false} WordsTrimRight(s: string)
    ensures Words(TrimRight(s)) == Words(s)
    decreases |s|
  {
    if s != [] && IsSpace(s[|s| - 1]) {
      var init := s[..|s| - 1];
      assert s == init + [s[|s| - 1]];
      WordsSpaceSnoc(init, s[|s| - 1]);
      WordsTrimRight(init);
    }
  }

  /** Putting a visible character in front of a non-empty word list extends its first word. */
  lemma JoinExtendsFirst(c: char, words: seq<string>)
    requires words != []
    ensures JoinWords([[c] + words[0]] + words[1..]) == [c] + JoinWords(words)
  {
    var ext := [[c] + words[0]] + words[1..];
    assert ext[0] == [c] + words[0] && ext[1..] == words[1..];
    if |words| > 1 {
      assert ([c] + words[0]) + [' '] + JoinWords(words[1..]) == [c] + (words[0] + [' '] + JoinWords(words[1..]));
    }
  }

  /** A visible character followed by a visible character extends the next word. */
  lemma WordsExtend(c: char, t: string)
    requires !IsSpace(c) && t != [] && !IsSpace(t[0])
    ensures Words([c] + t) == [[c] + Words(t)[0]] + Words(t)[1..]
  {
    assert ([c] + t)[1..] == t && ([c] + t)[1] == t[0];
  }

  /** A visible character followed by a space is a word of its own. */
  lemma WordsSingle(c: char, u: string)
    requires !IsSpace(c)
    ensures Words([c] + ([' '] + u)) == [[c]] + Words(u)
  {
    var t := [' '] + u;
    assert ([c] + t)[1..] == t && ([c] + t)[1] == ' ';
    WordsSpaceCons(' ', u);
  }

  /** Joining a one-character word in front of a non-empty list puts one space between. */
  lemma JoinSingle(c: char, words: seq<string>)
    requires words != []
    ensures JoinWords([[c]] + words) == [c] + ([' '] + JoinWords(words))
  {
    assert ([[c]] + words)[0] == [c] && ([[c]] + words)[1..] == words;
  }

  /** A well-formed text is the space-separated join of its own words. */
  lemma {:induction false} JoinOfWellFormed(w: string)
    requires WellFormed(w)
    ensures JoinWords(Words(w)) == w
    decreases |w|
  {
    if w != [] {
      var c, t := w[0], w[1..];
      assert w == [c] + t;
      if t == [] {
        assert Words(w) == [[c]];
      } else if !IsSpace(t[0]) {
        ShapeOfSlice(w, 1, |w|);
        assert t[|t| - 1] == w[|w| - 1];
        JoinOfWellFormed(t);
        WordsExtend(c, t);
        JoinExtendsFirst(c, Words(t));
      } else {
        var u := w[2..];
        assert t == [' '] + u by {
          assert t[0] == ' ';
        }
        assert u != [];
        assert !IsSpace(u[0]) by {
          assert !(IsSpace(w[1]) && IsSpace(w[2]));
        }
        ShapeOfSlice(w, 2, |w|);
        assert u[|u| - 1] == w[|w| - 1];
        JoinOfWellFormed(u);
        WordsSingle(c, u);
        JoinSingle(c, Words(u));
      }
    }
  }

  /** Putting a plain space or a visible character in front keeps the collapsed shape. */
  lemma ConsShape(c: char, rest: string)
    requires OnlySpaces(rest) && NoDoubleSpace(rest)
    requires IsSpace(c) ==> c == ' ' && (rest == [] || !IsSpace(rest[0]))
    ensures OnlySpaces([c] + rest) && NoDoubleSpace([c] + rest)
  {
    var t := [c] + rest;
    forall i | 0 < i < |t|
      ensures !(IsSpace(t[i - 1]) && IsSpace(t[i]))
    {
      if i > 1 {
        assert t[i - 1] == rest[i - 2] && t[i] == rest[i - 1];
      }
    }
  }

  /** `re.sub(r"\s+", " ", s)`: every maximal run of whitespace becomes one space. */
  function Collapse(s: string): (r: string)
    ensures OnlySpaces(r) && NoDoubleSpace(r)
    ensures r == [] <==> s == []
    ensures r != [] ==> (IsSpace(r[0]) <==> IsSpace(s[0]))
    ensures Visible(r) == Visible(s)
    ensures Words(r) == Words(s)
    decreases |s|
  {
    if s == [] then []
    else
      assert s == [s[0]] + s[1..];
      if IsSpace(s[0]) then
        var rest := Collapse(TrimLeft(s[1..]));
        VisibleAppend([' '], rest);
        ConsShape(' ', rest);
        WordsSpaceCons(' ', rest);
        WordsTrimLeft(s[1..]);
        WordsSpaceCons(s[0], s[1..]);
        [' '] + rest
      else
        var rest := Collapse(s[1..]);
        VisibleAppend([s[0]], rest);
        ConsShape(s[0], rest);
        WordsVisibleCons(s[0], rest, s[1..]);
        [s[0]] + rest
  }

  /** Stripping both ends leaves no whitespace at either edge. */
  lemma StripEdges(c: string)
    ensures NoEdgeSpace(TrimRight(TrimLeft(c)))
  {
    var t := TrimLeft(c);
    var r := TrimRight(t);
    if r != [] {
      assert r[0] == t[0];
    }
  }

  /** Stripping both ends keeps the collapsed shape and adds the edge guarantee. */
  lemma StripShape(c: string)
    requires OnlySpaces(c) && NoDoubleSpace(c)
    ensures WellFormed(TrimRight(TrimLeft(c)))
  {
    var t := TrimLeft(c);
    ShapeOfSlice(c, |c| - |t|, |c|);
    var r := TrimRight(t);
    ShapeOfSlice(t, 0, |r|);
    StripEdges(c);
  }

  /** A text with no edge whitespace is empty exactly when nothing in it is visible. */
  lemma EmptyIffInvisible(r: string)
    requires NoEdgeSpace(r)
    ensures r == [] <==> Visible(r) == []
  {
    if r != [] {
      assert r[0] in Visible(r);
    }
  }

  /**
   * `re.sub(r"\s+", " ", s).strip()`: the final cleanup step. It is Python's
   * `" ".join(s.split())`: the words of `s`, in order, one space apart.
   */
  function Clean(s: string): (r: string)
    ensures WellFormed(r)
    ensures Visible(r) == Visible(s)
    ensures r == [] <==> Visible(s) == []
    ensures r == JoinWords(Words(s))
  {
    var c := Collapse(s);
    StripShape(c);
    var r := TrimRight(TrimLeft(c));
    EmptyIffInvisible(r);
    WordsTrimLeft(c);
    WordsTrimRight(TrimLeft(c));
    JoinOfWellFormed(r);
    r
  }

  /** Removes every occurrence of `x` (Python's `s.replace(x, "")` for one character). */
  function RemoveChar(s: string, x: char): (r: string)
    ensures x !in r
    ensures forall c :: c != x ==> (c in r <==> c in s)
    ensures x !in s ==> r == s
    ensures multiset(r) == multiset(s)[x := 0]
  {
    if s == [] then []
    else
      assert s == [s[0]] + s[1..];
      assert multiset(s) == multiset{s[0]} + multiset(s[1..]);
      (if s[0] == x then [] else [s[0]]) + RemoveChar(s[1..], x)
  }

  /** Keeps the positions from `i` on that the emoji library does not mark. */
  function DropMarked(s: string, isEmoji: (string, nat) -> bool, i: nat): (r: string)
    requires i <= |s|
    ensures forall c :: c in r ==> c in s[i..]
    decreases |s| - i
  {
    if i == |s| then []
    else
      assert s[i..] == [s[i]] + s[i + 1..];
      (if isEmoji(s, i) then [] else [s[i]]) + DropMarked(s, isEmoji, i + 1)
  }

  /** `emoji.replace_emoji(s, replace="")`: deletes characters and never adds one. */
  function RemoveEmoji(s: string, isEmoji: (string, nat) -> bool): (r: string)
    ensures forall c :: c in r ==> c in s
  {
    assert s[0..] == s;
    DropMarked(s, isEmoji, 0)
  }

  /** One custom replacement; a pattern that raises leaves the text as it was. */
  function Substitute(sub: (string, string, string) -> Option<string>, rule: Replacement, s: string): string {
    sub(rule.pattern, rule.replace, s).GetOr(s)
  }

  /** The custom replacements, applied one after another in list order. */
  function ApplyReplacements(rules: seq<Replacement>, sub: (string, string, string) -> Option<string>, s: string): string
    decreases |rules|
  {
    if rules == [] then s else ApplyReplacements(rules[1..], sub, Substitute(sub, rules[0], s))
  }

  /** Splitting the replacement list splits the pipeline: the list runs in order. */
  lemma {:induction false} ApplyReplacementsInOrder(
    first: seq<Replacement>, second: seq<Replacement>, sub: (string, string, string) -> Option<string>, s: string)
    ensures ApplyReplacements(first + second, sub, s)
         == ApplyReplacements(second, sub, ApplyReplacements(first, sub, s))
    decreases |first|
  {
    if first == [] {
      assert first + second == second;
    } else {
      assert (first + second)[0] == first[0];
      assert (first + second)[1..] == first[1..] + second;
      ApplyReplacementsInOrder(first[1..], second, sub, Substitute(sub, first[0], s));
    }
  }

  /** The markdown step, or else the asterisk step. */
  function StripMarkup(cfg: Config, ops: Ops, s: string): string {
    if cfg.normalizeMarkdown then RemoveChar(ops.markdown(s), '`')
    else if cfg.removeAsterisks then RemoveChar(s, '*')
    else s
  }

  /**
   * The normaliser: custom replacements, then markdown (or asterisk) removal, then
   * emoji removal, then whitespace cleanup. Because the cleanup runs last and the
   * character removals run after the replacements, the guarantees below hold for
   * every replacement, markdown and emoji function.
   */
  function Normalize(cfg: Config, ops: Ops, text: string): (r: string)
    ensures text == [] ==> r == []
    ensures WellFormed(r)
    ensures !cfg.normalizeMarkdown && cfg.removeAsterisks ==> '*' !in r
    ensures cfg.normalizeMarkdown ==> '`' !in r
    ensures cfg.replacements == [] && !cfg.normalizeMarkdown && !cfg.removeEmoji ==>
      r == JoinWords(Words(if cfg.removeAsterisks then RemoveChar(text, '*') else text))
  {
    if text == [] then []
    else
      var replaced := ApplyReplacements(cfg.replacements, ops.sub, text);
      var stripped := StripMarkup(cfg, ops, replaced);
      var plain := if cfg.removeEmoji then RemoveEmoji(stripped, ops.isEmoji) else stripped;
      var r := Clean(plain);
      assert '*' in r ==> '*' in Visible(r);
      assert '`' in r ==> '`' in Visible(r);
      r
  }

  /** A string with an all-whitespace text has nothing visible. */
  lemma {:induction false} VisibleOfSpaces(s: string)
    requires forall i :: 0 <= i < |s| ==> IsSpace(s[i])
    ensures Visible(s) == []
    decreases |s|
  {
    if s != [] {
      VisibleOfSpaces(s[1..]);
    }
  }

  /** The cleanup returns "" exactly for all-whitespace text. */
  lemma CleanEmptyIffSpaces(s: string)
    ensures Clean(s) == [] <==> forall i :: 0 <= i < |s| ==> IsSpace(s[i])
  {
    if forall i :: 0 <= i < |s| ==> IsSpace(s[i]) {
      VisibleOfSpaces(s);
    } else {
      var i :| 0 <= i < |s| && !IsSpace(s[i]);
      assert s[i] in Visible(s);
    }
  }

  /** A leading visible character is kept as it is. */
  lemma CollapseVisibleHead(s: string)
    requires s != [] && !IsSpace(s[0])
    ensures Collapse(s) == [s[0]] + Collapse(s[1..])
  {
  }

  /** A leading space not followed by another one is kept as it is. */
  lemma CollapseSpaceHead(s: string)
    requires s != [] && s[0] == ' ' && (|s| == 1 || !IsSpace(s[1]))
    ensures Collapse(s) == [' '] + Collapse(s[1..])
  {
    var tail := s[1..];
    assert tail == [] || !IsSpace(tail[0]);
    assert TrimLeft(tail) == tail;
  }

  /** A leading whitespace character starts a run that becomes one space. */
  lemma CollapseSpaceCons(s: string)
    requires s != [] && IsSpace(s[0])
    ensures Collapse(s) == [' '] + Collapse(TrimLeft(s[1..]))
  {
  }

  /** The text is non-empty and its last character is whitespace. */
  predicate EndsInSpace(s: string) {
    s != [] && IsSpace(s[|s| - 1])
  }

  /** A non-empty suffix ends where the whole text ends. */
  lemma EndsInSpaceSuffix(s: string, k: nat)
    requires k < |s|
    ensures EndsInSpace(s[k..]) == EndsInSpace(s)
  {
    assert s[k..][|s| - k - 1] == s[|s| - 1];
  }

  /** Prefixing a character does not change how a non-empty text ends. */
  lemma EndsInSpaceCons(c: char, t: string)
    requires t != []
    ensures EndsInSpace([c] + t) == EndsInSpace(t)
  {
    assert ([c] + t)[|t|] == t[|t| - 1];
  }

  /** A non-empty text that trims to nothing ends in whitespace. */
  lemma AllSpaceTail(s: string)
    requires s != [] && TrimLeft(s) == []
    ensures EndsInSpace(s)
  {
    assert 0 <= |s| - 1 < |s| - |TrimLeft(s)|;
  }

  /** The step of `CollapseLast` for a leading whitespace run. */
  lemma CollapseLastSpace(s: string)
    requires s != [] && IsSpace(s[0])
    requires EndsInSpace(Collapse(TrimLeft(s[1..]))) == EndsInSpace(TrimLeft(s[1..]))
    ensures EndsInSpace(Collapse(s)) == EndsInSpace(s)
  {
    CollapseSpaceCons(s);
    var tail := s[1..];
    var t := TrimLeft(tail);
    if t == [] {
      assert Collapse(s) == [' '];
      if tail != [] {
        AllSpaceTail(tail);
        EndsInSpaceSuffix(s, 1);
      }
    } else {
      EndsInSpaceSuffix(tail, |tail| - |t|);
      EndsInSpaceSuffix(s, 1);
      EndsInSpaceCons(' ', Collapse(t));
    }
  }

  /** The step of `CollapseLast` for a leading visible character. */
  lemma CollapseLastVisible(s: string)
    requires s != [] && !IsSpace(s[0])
    requires EndsInSpace(Collapse(s[1..])) == EndsInSpace(s[1..])
    ensures EndsInSpace(Collapse(s)) == EndsInSpace(s)
  {
    CollapseVisibleHead(s);
    if |s| == 1 {
      assert Collapse(s) == [s[0]];
    } else {
      EndsInSpaceSuffix(s, 1);
      EndsInSpaceCons(s[0], Collapse(s[1..]));
    }
  }

  /**
   * The last whitespace run is kept too: the collapsed text ends in a space
   * exactly when the input ends in whitespace.
   */
  lemma {:induction false} CollapseLast(s: string)
    ensures EndsInSpace(Collapse(s)) <==> EndsInSpace(s)
    decreases |s|
  {
    if s != [] {
      if IsSpace(s[0]) {
        CollapseLast(TrimLeft(s[1..]));
        CollapseLastSpace(s);
      } else {
        CollapseLast(s[1..]);
        CollapseLastVisible(s);
      }
    }
  }

  lemma {:induction false} CollapseFixpoint(s: string)
    requires OnlySpaces(s) && NoDoubleSpace(s)
    ensures Collapse(s) == s
    decreases |s|
  {
    if s != [] {
      var t := s[1..];
      assert s == [s[0]] + t;
      ShapeOfSlice(s, 1, |s|);
      CollapseFixpoint(t);
      if IsSpace(s[0]) {
        FixpointSpaceHead(s);
      } else {
        CollapseVisibleHead(s);
      }
    }
  }

  /** In collapsed-shape text a leading whitespace character is a lone plain space. */
  lemma FixpointSpaceHead(s: string)
    requires OnlySpaces(s) && NoDoubleSpace(s) && s != [] && IsSpace(s[0])
    ensures Collapse(s) == [' '] + Collapse(s[1..]) && s[0] == ' '
  {
    if |s| > 1 {
      assert !(IsSpace(s[0]) && IsSpace(s[1]));
    }
    CollapseSpaceHead(s);
  }

  /** Already-clean text is left alone by the cleanup. */
  lemma CleanFixpoint(s: string)
    requires WellFormed(s)
    ensures Clean(s) == s
  {
    CollapseFixpoint(s);
  }

  /**
   * With no replacements and the markdown and emoji steps off, normalising twice
   * is normalising once.
   */
  lemma NormalizeIdempotent(cfg: Config, ops: Ops, text: string)
    requires cfg.replacements == [] && !cfg.normalizeMarkdown && !cfg.removeEmoji
    ensures Normalize(cfg, ops, Normalize(cfg, ops, text)) == Normalize(cfg, ops, text)
  {
    var once := Normalize(cfg, ops, text);
    if once != [] {
      assert StripMarkup(cfg, ops, once) == once;
      CleanFixpoint(once);
    }
  }

  /**
   * With markdown normalisation on, the asterisk step is skipped whatever
   * `remove_asterisks` says: an asterisk the markdown regexes leave in place (an
   * unpaired one, say) reaches the output.
   */
  lemma MarkdownKeepsAsterisks(cfg: Config, ops: Ops, text: string)
    requires cfg.normalizeMarkdown && !cfg.removeEmoji && text != []
    requires '*' in ops.markdown(ApplyReplacements(cfg.replacements, ops.sub, text))
    ensures '*' in Normalize(cfg, ops, text)
  {
    var stripped := StripMarkup(cfg, ops, ApplyReplacements(cfg.replacements, ops.sub, text));
    assert '*' in stripped;
    assert '*' in Visible(stripped);
    assert '*' in Visible(Clean(stripped));
  }

  /** The `collapse_whitespace` switch is never read: both settings normalise alike. */
  lemma CollapseSwitchIgnored(cfg: Config, ops: Ops, text: string)
    ensures Normalize(cfg.(collapseWhitespace := true), ops, text) == Normalize(cfg.(collapseWhitespace := false), ops, text)
  {
  }

  /**
   * Text made only of whitespace normalises to "" whenever no replacement or
   * markdown rule can introduce visible characters.
   */
  lemma WhitespaceOnlyIsEmpty(cfg: Config, ops: Ops, text: string)
    requires cfg.replacements == [] && !cfg.normalizeMarkdown
    requires forall i :: 0 <= i < |text| ==> IsSpace(text[i])
    ensures Normalize(cfg, ops, text) == []
  {
    if text != [] {
      var stripped := StripMarkup(cfg, ops, text);
      assert forall c :: c in stripped ==> c in text;
      var plain := if cfg.removeEmoji then RemoveEmoji(stripped, ops.isEmoji) else stripped;
      assert forall c :: c in plain ==> c in text;
      forall i | 0 <= i < |plain|
        ensures IsSpace(plain[i])
      {
        assert plain[i] in text;
      }
      CleanEmptyIffSpaces(plain);
    }
  }

  lemma {:induction false} RemoveCharAppend(a: string, b: string, x: char)
    ensures RemoveChar(a + b, x) == RemoveChar(a, x) + RemoveChar(b, x)
    decreases |a|
  {
    if a == [] {
      assert a + b == b;
    } else {
      assert (a + b)[0] == a[0];
      assert (a + b)[1..] == a[1..] + b;
      RemoveCharAppend(a[1..], b, x);
    }
  }

  lemma KeepPrefix(a: string, t: string, x: char)
    requires x !in a
    ensures RemoveChar(a + t, x) == a + RemoveChar(t, x)
  {
    RemoveCharAppend(a, t, x);
  }

  lemma DropMarker(t: string, x: char)
    ensures RemoveChar([x] + t, x) == RemoveChar(t, x)
  {
    assert [x][1..] == [];
    RemoveCharAppend([x], t, x);
  }

  /** Removing the markers around an emphasised word keeps the surrounding text. */
  lemma RemoveMarkers(a: string, b: string, c: string, x: char)
    requires x !in a && x !in b && x !in c
    ensures RemoveChar(a + ([x] + (b + ([x] + c))), x) == a + (b + c)
  {
    DropMarker(c, x);
    KeepPrefix(b, [x] + c, x);
    DropMarker(b + ([x] + c), x);
    KeepPrefix(a, [x] + (b + ([x] + c)), x);
  }

  lemma ExampleParts(text: string)
    requires text == "Hello *world*!"
    ensures text == "Hello " + (['*'] + ("world" + (['*'] + "!")))
    ensures '*' !in "Hello " && '*' !in "world" && '*' !in "!"
    ensures "Hello " + ("world" + "!") == "Hello world!"
  {
    assert |text| == 14;
    var hello := "Hello ";
    assert forall i :: 0 <= i < |hello| ==> hello[i] != '*';
  }

  lemma ExampleStripped(text: string)
    requires text == "Hello *world*!"
    ensures RemoveChar(text, '*') == "Hello world!"
  {
    ExampleParts(text);
    RemoveMarkers("Hello ", "world", "!", '*');
  }

  lemma ExampleClean(out: string)
    requires out == "Hello world!"
    ensures WellFormed(out)
  {
    assert forall i :: 0 <= i < |out| && i != 5 ==> !IsSpace(out[i]);
  }

  /** The default configuration strips the emphasis markers of "Hello *world*!". */
  lemma DefaultExample(ops: Ops, text: string)
    requires text == "Hello *world*!"
    ensures Normalize(Default, ops, text) == "Hello world!"
  {
    ExampleStripped(text);
    ExampleClean("Hello world!");
    CleanFixpoint("Hello world!");
  }
}

=== FILE: options.dfy ===
/** The optional-value type used throughout the model (Python's `None`). */
module Options {

  datatype Option<+T> = None | Some(value: T) {

    /** Python's `x or default` for an optional value whose present values are all truthy. */
    function GetOr(default: T): T {
      match this
      case Some(v) => v
      case None => default
    }
  }
}
